=== FILE: README.md ===
# plantuml-rs, modelled in Dafny

plantuml-rs renders PlantUML diagrams from Rust without a system Java. This
model covers its parts:

- **Build script.** `build.rs` picks the Temurin JRE for the target platform
  and downloads it together with the PlantUML JAR. It repackages both into one
  zip, `binaries/plantuml-bundle.zip`, which is then compiled into the crate.
- **Bundle cache.** `src/binary.rs` unpacks that zip, once per process, into a
  per-version cache directory and hands back the paths of the Java executable
  and the JAR.
- **Executor.** `src/executor.rs` runs Java on the JAR in `-pipe -tsvg` mode.
  It classifies the child's exit status and output streams into an SVG string
  or an error.
- **Library.** `src/lib.rs` offers `render`, `render_file` and
  `render_to_file` on top of the executor.
- **Command-line passthrough.** `src/bin/plantuml.rs` runs the JAR with the
  user's arguments and passes the exit code on.
- **Errors.** `src/error.rs` holds the error type and its messages.

Everything the program gets from outside is an input to the model:

- the two downloads;
- what the zip and tar readers make of the JRE archive;
- the host's cache, data and temp directories;
- the embedded bundle;
- the child process, as a function from command line and stdin bytes to how
  the run ended;
- the zip encoder's output bytes.

The filesystem is a map from normalised path components to directories and
files. Each file carries its bytes and a mode. A set of denied paths
models permission errors, and a set of paths on a volume with no room left
models a full disk: a file can be created there, but writing any bytes into it
fails and leaves it as created, empty. Paths follow `PathBuf::join` and
`Path::components` on Unix, UTF-8 follows Rust's `from_utf8` and `from_utf8_lossy`,
and exit codes follow `ExitStatus::code` and `code as u8`.

Modules follow the source files:

| source | modules |
|---|---|
| `build.rs` | `Build` |
| `src/binary.rs` | `Binary` |
| `src/executor.rs` | `Executor` |
| `src/lib.rs` | `Lib` |
| `src/bin/plantuml.rs` | `Cli` |
| `src/error.rs` | `Errors` |
| standard-library behaviour the program relies on | `Wrappers`, `Text`, `Decimal`, `Utf8`, `Paths`, `Fs`, `Archive` |
| build output read back by the runtime | `Lifecycle` |

## Model

| member | source | states |
|---|---|---|
| Build.SelectPlatform | build.rs:23-35 | The target is accepted exactly when (os, arch) is one of the five listed pairs, and the chosen target is the one for that pair. Only windows-x86_64 takes the zip path. The macOS layout flag is set exactly for macos. Any other pair panics with "Unsupported platform: os-arch." at the head of the message. |
| Build.UnsupportedMessage | build.rs:29-34 | The panic text for an unknown target starts with the platform named as `os-arch`. |
| Build.JreUrl | build.rs:11-15 | The Windows JRE is a `.zip` download and every other target's is a `.tar.gz`. |
| Build.JreUrlMatchesPipeline | build.rs:11-28 | A platform takes the tarball pipeline exactly when its JRE URL ends in `.tar.gz`. |
| Build.StripTopDir | build.rs:129-130 | A name with no `/` is kept whole. Otherwise the result is what follows the first `/`, and what precedes it holds no `/`. |
| Build.ZipStep | build.rs:123-155 | A zip entry that is emitted lies under `jre/`. It is a directory exactly when the entry name ends in `/`. A file keeps the entry's bytes and carries no mode. An entry the reader cannot open panics, and so does a file entry whose bytes cannot be read. |
| Build.TarRelPath | build.rs:197-220 | A kept tar path is never empty, `Contents` or `Contents/`. |
| Build.TarPathBareName | build.rs:197-220 | A tar path with no `/` is kept whole, on every platform, unless it is the `Contents` residue. |
| Build.StripMacosHome | build.rs:207-215 | On macOS the path loses a leading `Contents/Home/`, else a leading `Contents/Home`, and is otherwise unchanged. |
| Build.TarStep | build.rs:189-249 | Symlinks and other kinds are skipped, and so are dropped paths. An emitted entry is `jre/` + the relative path. Directories and regular files are emitted whenever their path is kept. A file keeps its bytes. On a Unix build host it takes the header mode, or 0o644 when the mode cannot be read. An entry or path the reader cannot decode panics, and so does a kept regular file whose bytes cannot be read. |
| Build.CollectAppend | build.rs:123-156 | Processing two runs of entries is processing the first and then the second, with the names the first wrote counted as taken. The emitted entries keep archive order, and the first panic wins. |
| Build.Collect | build.rs:140-151 | The zip writer panics on a name it already holds, so every collected run of entries has names distinct from each other and from those written before. |
| Build.CollectIffFresh | build.rs:224-243 | Collecting succeeds exactly when every entry is processed without a panic and the names written are all new. Then the entries are exactly those processed. |
| Build.CollectOnlyEmits | build.rs:123-156 | Every emitted bundle entry comes from some archive entry. |
| Build.ZipBundle | build.rs:103-159 | A JRE that is not a zip panics. Otherwise the bundle is built exactly when the entries collect after the JAR's name. It then starts with `plantuml.jar` holding the JAR bytes, followed by exactly what the entries produce, in order, with no name twice. |
| Build.TarBundle | build.rs:161-252 | A JRE that is not a gzipped tarball panics. Otherwise the bundle is built exactly when the tar entries collect after the JAR's name. It then starts with `plantuml.jar` holding the JAR bytes, followed by exactly what the tar entries produce, in order, with no name twice. |
| Build.ZipStepWrapped | build.rs:129-155 | For `w/rest`: an empty `rest` is skipped. A `rest` ending in `/` becomes directory `jre/rest`. Anything else becomes file `jre/rest` with the same bytes, or panics when the bytes cannot be read. |
| Build.ZipStepBareName | build.rs:130 | A name with no `/` is kept whole under `jre/`. |
| Build.TarPathWrapped | build.rs:197-220 | Off macOS, `w/rest` goes to `jre/rest`, unless `rest` is empty or the `Contents` wrapper. |
| Build.TarPathMacosHome | build.rs:207-212 | On macOS, `w/Contents/Home/x` goes to `jre/x`. |
| Build.TarPathMacosHomeFallback | build.rs:210-211 | On macOS, the fallback strip turns `w/Contents/HomeX` into `jre/X`. |
| Build.TarPathMacosOther | build.rs:207-215 | On macOS, a path outside `Contents/Home`, such as `w/Contents/Info.plist`, is kept as it is off macOS. |
| Build.TarPathMacosHomeDropped | build.rs:207-220 | On macOS, `w/Contents/Home` and `w/Contents/Home/` are dropped. |
| Build.TarPathMacosNestedContentsDropped | build.rs:207-220 | On macOS, `w/Contents/Home/Contents` and `w/Contents/Home/Contents/` are dropped. |
| Build.TarPathDropsContents | build.rs:217-220 | `w/Contents` and `w/Contents/` are dropped on every platform, not only on macOS. |
| Build.BundleUnderJre | build.rs:111-155 | Every entry after the JAR lies under `jre/`, on both pipelines. |
| Build.BundleKeyShape | build.rs:37-43 | The bundle file sits directly in `<manifest>/binaries`. |
| Build.Repackage | build.rs:75-79 | The platform's tarball flag picks the tarball pipeline, with its macOS flag, and otherwise the zip pipeline. The result always puts the JAR first and holds no name twice. |
| Build.BuildFor | build.rs:37-81 | An existing bundle ends the build with no download and no change. A finished build fetched the JAR and then the platform's JRE, and its entries are exactly what the platform's pipeline makes of those downloads. The bundle file then holds their encoding. The filesystem stays a tree. |
| Build.BuildMain | build.rs:17-81 | An unsupported target panics before anything is touched. Otherwise an existing bundle ends the build, and a finished build holds what the selected platform's pipeline makes of the downloads, written to `<manifest>/binaries/plantuml-bundle.zip`. |
| Build.BuildSucceeds | build.rs:37-81 | With the binaries directory creatable, no bundle yet, both downloads good, a JRE that repackages, and room for the bundle file, the build finishes with the repackaged entries. |
| Build.PartialBundleIsReused | build.rs:46-52 | As written, with the binaries directory in place and no bundle yet, a repackaging panic, or no room for the JAR's entry, leaves an empty bundle file behind. Every later build then stops at the existence check, whatever it downloads. |
| Build.PartialBundleWitness | build.rs:103-106 | Concrete case: with an empty `binaries` directory on Linux x86_64, a JRE download that is not a gzipped tarball makes the build panic. The next build reports the leftover file as an existing bundle. |
| Build.BuildForAtomic | build.rs:46-81 | Corrected build: a finished build holds what the platform's pipeline makes of the downloads, and a build that panics leaves the bundle file's existence as it was. |
| Build.BuildMainAtomic | build.rs:17-81 | Corrected build from the host's view: the same guarantees, on the real bundle path. |
| Build.FailedAtomicBuildIsRetried | build.rs:46-52 | After a failed corrected build, the next build does not take the early return. |
| Binary.BaseDir | src/binary.rs:92-94 | The base is the cache directory, else the local data directory, else the temp directory. |
| Binary.CacheDir | src/binary.rs:90-97 | For a version that is one path component, the cache directory is `<base>/plantuml-rs/<version>`. |
| Binary.CacheDirsOfVersionsDiffer | src/binary.rs:90-97 | Two crate versions never share a cache directory. |
| Binary.PathsIn | src/binary.rs:30-33 | The executable is `<dir>/jre/bin/java.exe`, on every platform. The JAR is `<dir>/plantuml.jar`. |
| Binary.DirEntryStep | src/binary.rs:63-66 | A directory entry is created together with its ancestors. On failure nothing is lost. |
| Binary.FileEntryStep | src/binary.rs:69-84 | A file entry gets its parent directories and then its bytes. Only names on the way to its target change. New files get the default mode. A failure either loses nothing or, on a full volume, leaves the target created and empty. |
| Binary.ExtractStep | src/binary.rs:55-85 | One loop pass either leaves its entry in place (a directory, or a file with the entry's bytes) or fails with `BinaryExtraction`. |
| Binary.ExtractEntries | src/binary.rs:55-85 | Any run, finished or aborted, keeps the tree valid and removes nothing. A directory stays a directory and a file stays a file. Only names on the way to an entry's target change. No file gets a mode other than its old one or the default. |
| Binary.ExtractAppend | src/binary.rs:55-85 | Extracting `a + b` is extracting `a` and then, if that finished, `b`. |
| Binary.DirEntriesExist | src/binary.rs:63-66 | After a finished run, every directory entry exists as a directory. |
| Binary.FileEntriesHoldLastBytes | src/binary.rs:69-84 | After a finished run, a file entry's target holds its bytes, unless a later entry has the same target. |
| Binary.FileSurvives | src/binary.rs:55-85 | A file that no entry aims at keeps its contents and mode, whether the run finishes or stops early. |
| Binary.ExtractBundle | src/binary.rs:37-88 | The fast path fires when both paths exist. Otherwise the cache directory is created with its ancestors, a failure there is returned, a bundle that is not a zip gives an error, and a readable bundle is extracted entry by entry, giving the cache directory or the first error. Every error is `BinaryExtraction`. Directories stay and the tree stays valid. |
| Binary.FastPathNeedsJavaExeEntry | src/binary.rs:39-45 | After unpacking, `jre/bin/java.exe` can only exist if some entry aimed at it. A bundle without that entry (every Unix JRE) is therefore unpacked again on each run. |
| Binary.GetBundlePaths | src/binary.rs:27-34 | A memoised directory is reused without touching the filesystem. A success memoises the cache directory. A failure memoises nothing. |
| Binary.ResolvedOnce | src/binary.rs:15-28 | After a successful resolution, the next call in the same process returns the same result and changes nothing. |
| Binary.FailureRetried | src/binary.rs:28 | After a failed resolution, the next call extracts again on the filesystem the failure left. |
| Binary.FilledCacheIsReused | src/binary.rs:43-45 | A new process on a filled cache changes nothing and resolves to the cache directory. |
| Executor.PipeArgs | src/executor.rs:14-21 | The arguments are `-jar <jar> -pipe -tsvg -charset UTF-8`. |
| Executor.Classify | src/executor.rs:40-52 | The result is Ok exactly when the status is success and stdout is valid UTF-8, and then it is the text stdout encodes. Success with invalid stdout gives `InvalidUtf8`. A failure is a syntax error exactly when the lossy stderr contains "Syntax Error" or "@startuml". Otherwise it is `ProcessFailed` with the code, or -1, and the lossy stderr. `ProcessSignaled` is never produced. |
| Executor.SuccessIgnoresStderr | src/executor.rs:40-52 | On success, stderr plays no part. |
| Executor.SvgRoundTrip | src/executor.rs:52 | Text the child writes comes back unchanged. |
| Executor.FailureKeepsStderrText | src/executor.rs:41-49 | A failure whose stderr is valid UTF-8 reports that exact text. |
| Executor.PipeCall | src/executor.rs:13-31 | The child runs the resolved executable on the pipe arguments, and stdin carries the input's UTF-8 bytes. |
| Executor.ExecutePipe | src/executor.rs:10-53 | A resolution failure starts nothing. Otherwise the command is started: spawn and wait failures become `ProcessSpawn`, a stdin failure becomes `StdinWrite`, and a finished child is classified. |
| Executor.RenderedTextIsStdout | src/executor.rs:36-52 | A rendered string is exactly what the child wrote to stdout. |
| Lib.Render | src/lib.rs:43-45 | `render` is the executor's pipe-mode run on the input. The text returned encodes the child's stdout, and the child was given the input's bytes. |
| Lib.WriteSvg | src/lib.rs:71-74 | The write succeeds exactly when the output can be created and either the SVG is empty or the volume has room. On success exactly the output file changes, and it decodes to the SVG. A failure names the output path and either changes nothing or, on a full volume, leaves the output file created and empty. |
| Lib.RenderFile | src/lib.rs:63-77 | An unreadable or non-UTF-8 input fails with `InputRead` on the input path, before anything runs. Otherwise `render_file` behaves as execute-then-write. |
| Lib.RenderToFile | src/lib.rs:95-104 | Execution errors pass through unchanged. A rendered SVG is written to the output path. |
| Lib.RenderFileIsReadThenRenderToFile | src/lib.rs:63-104 | Rendering a UTF-8 file equals rendering its text with `render_to_file`. |
| Lib.RenderFileWritesStdout | src/lib.rs:63-77 | After a successful `render_file`, the output file holds exactly the child's stdout bytes. No other node changes beyond what resolving the bundle did. |
| Cli.ExitByte | src/bin/plantuml.rs:31 | `code as u8` agrees with the code modulo 256, and codes 0-255 pass through. |
| Cli.ExitByteWraps | src/bin/plantuml.rs:31 | -1 gives 255, -256 and 256 give 0, and 257 gives 1. |
| Cli.UserArgs | src/bin/plantuml.rs:19 | The program name is dropped and the remaining arguments are kept in order. |
| Cli.CliMain | src/bin/plantuml.rs:8-41 | A resolution failure prints the extraction header and the message, and exits 1 without running anything. Otherwise it runs `java -jar <jar> <args>`: an exit code is passed on as `code as u8`, a signal gives 1, and a failure to run prints the run header and gives 1. |
| Cli.CliSucceedsIff | src/bin/plantuml.rs:28-40 | The binary exits 0 exactly when the child ran and its exit code is a multiple of 256. |
| Cli.ExtractionFailureReported | src/bin/plantuml.rs:10-16 | A resolution failure runs nothing, exits 1, and prints "Error extracting PlantUML bundle: failed to extract plantuml binary: ...". |
| Errors.Message | src/error.rs:4-40 | Each variant's message is its header followed by the cause's text. The signal variant's message is fixed. |
| Errors.FileErrorsNamePath | src/error.rs:21-33 | The file errors quote the path they are about. |
| Errors.ProcessFailedMessageInjective | src/error.rs:9-10 | A process failure's message determines both the exit code and the stderr text. |
| Lifecycle.JreEntryMissesJar | src/binary.rs:69 | No entry under `jre/` lands on the JAR's place. |
| Lifecycle.JarLandsWhereRuntimeLooks | src/binary.rs:32 | A bundle that starts with the JAR and keeps everything else under `jre/`, once unpacked without error, leaves the JAR's bytes exactly where `get_bundle_paths` points. |
| Lifecycle.RepackagedJarReachesRuntime | build.rs:111-117 | Whatever either pipeline produces, once unpacked without error, puts the downloaded JAR where the runtime looks. |
| Lifecycle.StoredModeIgnored | src/binary.rs:80-84 | The mode stored for a tar entry never reaches the disk. A new file gets the default mode. |
| Fs.CreateDirAll | src/binary.rs:48 | `create_dir_all` removes or changes nothing and adds only directories above its target. On success the target and all its ancestors are directories. The tree stays valid. |
| Fs.CreateDirAllSucceedsIff | src/binary.rs:48 | `create_dir_all` succeeds exactly when no prefix of the path is a file and none of the missing directories is denied. |
| Fs.CreateDirAllIdempotent | src/binary.rs:65 | Creating the same directories twice is the same as creating them once. |
| Fs.WriteFile | src/binary.rs:80-84 | Creating then writing succeeds exactly when the file can be created and there are no bytes or the volume has room. On success exactly the target changes: it holds the bytes and keeps the mode of an existing file. When creation fails nothing changes. When only the write fails the target is left created and empty. |
| Fs.CreateFile | src/binary.rs:80-81 | `File::create` succeeds exactly when the parent is a directory, the target is not one, and it is not denied. It then leaves the target empty, keeping an existing file's mode. On failure nothing changes. |
| Fs.WriteAll | src/binary.rs:82-84 | `write_all` fails exactly when there are bytes to write and the volume is full, and then nothing changes. Otherwise the file holds the bytes with its mode kept. |
| Fs.ReadToString | src/lib.rs:64 | Reading succeeds exactly for a readable file holding valid UTF-8. The text re-encodes to the file's bytes. |
| Utf8.DecodeEncode | src/executor.rs:52 | Decoding the UTF-8 encoding of a string gives that string back. |
| Utf8.EncodeDecode | src/executor.rs:52 | Bytes that decode are exactly the encoding of what they decode to. |
| Utf8.LossyAgreesOnValid | src/executor.rs:41 | On valid UTF-8, lossy decoding equals strict decoding. |
| Utf8.LossyMarksEveryError | src/executor.rs:41 | On invalid UTF-8, lossy decoding contains U+FFFD. |
| Decimal.ParseIntToDecimal | src/error.rs:9 | The decimal rendering of an exit code reads back as that code. |
| Decimal.IntToDecimalInjective | src/error.rs:9 | Different exit codes print differently. |
| Text.SplitOnce | build.rs:130 | `split_once` gives `None` exactly when the separator is absent. Otherwise it splits at the first occurrence. |
| Text.StripPrefix | build.rs:210-211 | `strip_prefix` succeeds exactly when the prefix is there, and it returns the rest. |
| Paths.KeyOfJoin | src/binary.rs:31 | Joining a relative path appends its components. |

## Left out

- Downloads, HTTP status checks and transport errors are inputs: each is either the bytes or the panic message.
- The zip, gzip and tar codecs are inputs. The readers are given as the entries they yield, or the failure at each entry.
- The zip writer is a function from entries to bytes. The runtime reads a bundle back as the entries written (`Archive.WrittenAll`). Compression, and the exact point in the stream where a write fails, are not modelled.
- Panic messages from `expect` carry the cause's display text. Rust's `{:?}` formatting of the underlying error is not reproduced.
- The `cargo:` lines the build script prints, and `rerun-if-changed`, have no effect on any result.
- A build script that fails mid-repackage is modelled as leaving an empty bundle file. The real writer may leave a partly written archive instead. Either way a file exists, which is all the existence check looks at.
- A full volume is the only way a write fails once its file is created, and a failed write leaves the file empty. A partly written file, and a `finish` that fails after every entry was accepted, are not modelled.
- The duplicate-name check follows the zip writer's behaviour of refusing a name it already holds. A directory is held under its name with the trailing `/`.
- Windows path syntax is not modelled: paths split on `/` only, so `\` separators and drive or UNC prefixes, which `Path::components` reads differently on a windows-x86_64 host, are treated as ordinary characters of a name.
- `..` is treated as an ordinary name, and symlinks do not exist. A `.` component is dropped, as `Path::components` does everywhere except at the start of a relative path, where it yields `CurDir`; the model drops that one too.
- Whether a path is absolute is kept in `Join` but not in the filesystem key.
- The process umask is not modelled: new files get 0o666 (`Fs.NewFileMode`).
- `to_str().unwrap()` on a non-UTF-8 JAR path would panic. Paths are strings here, so that case cannot arise.
- `Path::exists` swallowing I/O errors is not modelled: existence is read directly from the tree.
- The `OnceCell` is modelled for one thread. Concurrent first calls are not.
- When writing stdin fails, the child is left running. The model only returns `StdinWrite`.
- The child's stdout and stderr are taken as finished byte sequences. Pipe buffering and deadlock are not modelled.
- `ProcessSignaled` is never constructed by the source, so its message is modelled but nothing produces it.
- Binary.PathsIn: keeps the hard-coded `java.exe` name as written. On Linux and macOS the JRE ships `bin/java`, so the spawn would fail there. `Binary.FastPathNeedsJavaExeEntry` states the consequence for the fast path, and no corrected variant is modelled.
- The unit test that the embedded bundle exceeds 10 000 000 bytes is not modelled, because the bundle's size is an input.
- `CARGO_PKG_VERSION`, the host's directories and `env::args` are inputs.
- Non-UTF-8 command-line arguments, where `env::args` panics, are not modelled.

## Findings

| source | as written | input that shows it | evidently intended | confidence | as-written member | corrected member |
|---|---|---|---|---|---|---|
| build.rs:46-52, 106, 171 | The bundle file is created before the JRE archive is read. A panic while repackaging leaves the file behind, and the next build's `bundle_zip.exists()` check returns early and embeds it. | Target linux-x86_64 with an empty `binaries` directory, where the JRE download is not a gzipped tarball: the first build panics, and the second build, even with good downloads, reports the bundle as already built (Build.PartialBundleWitness). | A failed build leaves no bundle behind, so the next build starts over. | not executed | Build.PartialBundleIsReused | Build.BuildForAtomic |

=== FILE: archive.dfy ===
/** Zip archives as the crate reads and writes them, with the zip codec itself
    left abstract: an archive is the sequence of entries its reader yields. */
module Archive {
  import opened Wrappers
  import opened Text
  import Utf8
  import Errors

  /** One entry as `ZipArchive::by_index` yields it: either the reader fails on
      it, or it has a name and contents that `read_to_end` either returns or
      fails on. */
  datatype ZipSlot =
    | Unreadable(cause: string)
    | Stored(name: string, data: Result<seq<Utf8.byte>, Errors.IoError>)

  /** What `ZipArchive::new` makes of some bytes. */
  datatype ZipSource = NotAZip(cause: string) | ZipEntries(slots: seq<ZipSlot>)

  /** An entry handed to the zip writer: `add_directory`, or `start_file` plus
      `write_all`, with the Unix mode given through `unix_permissions` if any. */
  datatype BundleEntry =
    | BundleDir(name: string)
    | BundleFile(name: string, data: seq<Utf8.byte>, mode: Option<nat>)

  /** `add_directory` stores a directory under its name with a trailing `/`
      unless it already ends in `/` or `\`. */
  function DirName(name: string): (r: string)
    ensures EndsWithChar(r, '/') || EndsWithChar(r, '\\')
    ensures StartsWith(r, name)
  {
    if EndsWithChar(name, '/') || EndsWithChar(name, '\\') then name else name + "/"
  }

  /** The entry a zip reader yields for an entry the writer wrote. */
  function WrittenAs(e: BundleEntry): (r: ZipSlot)
    ensures r.Stored? && r.data.Ok?
  {
    match e
    case BundleDir(name) => Stored(DirName(name), Ok([]))
    case BundleFile(name, data, _) => Stored(name, Ok(data))
  }

  function WrittenAll(es: seq<BundleEntry>): (r: seq<ZipSlot>)
    ensures |r| == |es|
    ensures forall i :: 0 <= i < |es| ==> r[i] == WrittenAs(es[i])
  {
    if |es| == 0 then [] else [WrittenAs(es[0])] + WrittenAll(es[1..])
  }

  /** The names the writer holds after writing `es`. */
  function NamesOf(es: seq<BundleEntry>): set<string> {
    if |es| == 0 then {} else {WrittenAs(es[0]).name} + NamesOf(es[1..])
  }

  /** The writer refuses a name it already holds, so a bundle it finished has
      pairwise different names, none of them among those written before. */
  predicate FreshNames(es: seq<BundleEntry>, written: set<string>) {
    && (forall i :: 0 <= i < |es| ==> WrittenAs(es[i]).name !in written)
    && (forall i, j :: 0 <= i < j < |es| ==> WrittenAs(es[i]).name != WrittenAs(es[j]).name)
  }

  /** Writing `e` and then `es` keeps the names fresh exactly when `e`'s is,
      and `es`'s are fresh against it too. */
  lemma FreshCons(e: BundleEntry, es: seq<BundleEntry>, written: set<string>)
    ensures FreshNames([e] + es, written) <==>
      WrittenAs(e).name !in written && FreshNames(es, written + {WrittenAs(e).name})
  {
    var all := [e] + es;
    assert all[0] == e;
    assert forall i :: 0 <= i < |es| ==> all[i + 1] == es[i];
    if WrittenAs(e).name !in written && FreshNames(es, written + {WrittenAs(e).name}) {
      forall i, j | 0 <= i < j < |all| ensures WrittenAs(all[i]).name != WrittenAs(all[j]).name {
        if i > 0 {
          assert all[i] == es[i - 1];
        }
        assert all[j] == es[j - 1];
      }
    }
    if FreshNames(all, written) {
      forall i | 0 <= i < |es| ensures WrittenAs(es[i]).name !in written + {WrittenAs(e).name} {
        assert WrittenAs(all[0]).name != WrittenAs(all[i + 1]).name;
      }
      forall i, j | 0 <= i < j < |es| ensures WrittenAs(es[i]).name != WrittenAs(es[j]).name {
        assert WrittenAs(all[i + 1]).name != WrittenAs(all[j + 1]).name;
      }
    }
  }

  lemma NamesOfCons(e: BundleEntry, es: seq<BundleEntry>)
    ensures NamesOf([e] + es) == {WrittenAs(e).name} + NamesOf(es)
  {
    assert ([e] + es)[0] == e;
    assert ([e] + es)[1..] == es;
  }
}

=== FILE: binary.dfy ===
/** The bundle cache (src/binary.rs): the embedded bundle is unpacked once
    into a per-version cache directory, and the Java executable and the
    PlantUML JAR are then run from there. The embedded bundle, the base
    directories the host offers and the crate version are inputs. */
module Binary {
  import opened Wrappers
  import opened Text
  import opened Paths
  import opened Fs
  import opened Archive
  import opened Errors

  const ProductDir := "plantuml-rs"

  /** What the process sees of its host: the platform cache directory and the
      local data directory (each may be unknown), the temporary directory, the
      crate version and the bundle compiled into the binary. */
  datatype Env = Env(cacheDir: Option<Path>, dataLocalDir: Option<Path>, tempDir: Path,
                     version: string, bundle: ZipSource)

  /** The base of the cache: the cache directory, else the local data
      directory, else the temporary directory. */
  function BaseDir(env: Env): (r: Path)
    ensures env.cacheDir.Some? ==> r == env.cacheDir.value
    ensures env.cacheDir.None? && env.dataLocalDir.Some? ==> r == env.dataLocalDir.value
    ensures env.cacheDir.None? && env.dataLocalDir.None? ==> r == env.tempDir
  {
    env.cacheDir.GetOr(env.dataLocalDir.GetOr(env.tempDir))
  }

  /** `get_cache_dir`: the base directory's `plantuml-rs/<version>`. */
  function CacheDir(env: Env): (r: Path)
    ensures IsName(env.version) && '/' !in env.version ==>
      KeyOf(r) == KeyOf(BaseDir(env)) + [ProductDir, env.version]
  {
    KeyOfJoinName(BaseDir(env), ProductDir);
    if IsName(env.version) && '/' !in env.version then
      KeyOfJoinName(Join(BaseDir(env), ProductDir), env.version);
      Join(Join(BaseDir(env), ProductDir), env.version)
    else Join(Join(BaseDir(env), ProductDir), env.version)
  }

  /** Two versions never share a cache directory. */
  lemma CacheDirsOfVersionsDiffer(env1: Env, env2: Env)
    requires IsName(env1.version) && '/' !in env1.version
    requires IsName(env2.version) && '/' !in env2.version
    requires env1.version != env2.version
    ensures KeyOf(CacheDir(env1)) != KeyOf(CacheDir(env2))
  {
    var k1, k2 := KeyOf(CacheDir(env1)), KeyOf(CacheDir(env2));
    assert k1[|k1| - 1] == env1.version;
    assert k2[|k2| - 1] == env2.version;
  }

  datatype BundlePaths = BundlePaths(javaExe: Path, plantumlJar: Path)

  /** The two paths inside an extracted directory. The executable is
      `jre/bin/java.exe` whatever the operating system. */
  function PathsIn(dir: Path): (r: BundlePaths)
    ensures KeyOf(r.javaExe) == KeyOf(dir) + ["jre", "bin", "java.exe"]
    ensures KeyOf(r.plantumlJar) == KeyOf(dir) + ["plantuml.jar"]
  {
    JoinThree(dir, "jre", "bin", "java.exe");
    KeyOfJoinName(dir, "plantuml.jar");
    BundlePaths(Join(Join(Join(dir, "jre"), "bin"), "java.exe"), Join(dir, "plantuml.jar"))
  }

  lemma JoinThree(dir: Path, a: string, b: string, c: string)
    requires IsName(a) && '/' !in a && IsName(b) && '/' !in b && IsName(c) && '/' !in c
    ensures KeyOf(Join(Join(Join(dir, a), b), c)) == KeyOf(dir) + [a, b, c]
  {
    KeyOfJoinName(dir, a);
    KeyOfJoinName(Join(dir, a), b);
    KeyOfJoinName(Join(Join(dir, a), b), c);
  }

  /** Where an entry of the bundle lands under the cache directory. */
  function EntryKey(cache: Path, name: string): Key {
    KeyOf(Join(cache, name))
  }

  /** A zip entry whose name ends in `/` is a directory. */
  predicate IsDirEntry(name: string) {
    EndsWithChar(name, '/')
  }

  /** `slot` is an entry whose target is `k` or lies below `k`. */
  predicate SlotReaches(cache: Path, slot: ZipSlot, k: Key) {
    slot.Stored? && IsPrefix(k, EntryKey(cache, slot.name))
  }

  predicate Reaches(cache: Path, slots: seq<ZipSlot>, k: Key) {
    exists i :: 0 <= i < |slots| && SlotReaches(cache, slots[i], k)
  }

  /** What extraction promises of any run, finished or aborted: the tree stays
      a tree, nothing is removed, a directory stays a directory, every new or
      changed name lies on the way to an entry's target, and no file gets a
      mode other than the one it had or the default for new files. */
  ghost predicate Extracts(cache: Path, fs: FileSystem, slots: seq<ZipSlot>, fs': FileSystem) {
    && (Valid(fs) ==> Valid(fs'))
    && fs'.denied == fs.denied
    && (forall k :: k in fs.nodes ==> k in fs'.nodes)
    && (forall k :: IsDir(fs, k) ==> IsDir(fs', k))
    && (forall k :: IsFile(fs, k) ==> IsFile(fs', k))
    && (forall k :: k in fs'.nodes && (k !in fs.nodes || fs'.nodes[k] != fs.nodes[k]) ==> Reaches(cache, slots, k))
    && (forall k :: IsFile(fs', k) ==> fs'.nodes[k].mode == (if IsFile(fs, k) then fs.nodes[k].mode else NewFileMode))
  }

  /** As `Extracts`, for one entry whose target is `key`. */
  ghost predicate ExtractsToward(key: Key, fs: FileSystem, fs': FileSystem) {
    && (Valid(fs) ==> Valid(fs'))
    && fs'.denied == fs.denied
    && (forall k :: k in fs.nodes ==> k in fs'.nodes)
    && (forall k :: IsDir(fs, k) ==> IsDir(fs', k))
    && (forall k :: IsFile(fs, k) ==> IsFile(fs', k))
    && (forall k :: k in fs'.nodes && (k !in fs.nodes || fs'.nodes[k] != fs.nodes[k]) ==> IsPrefix(k, key))
    && (forall k :: IsFile(fs', k) ==> fs'.nodes[k].mode == (if IsFile(fs, k) then fs.nodes[k].mode else NewFileMode))
  }

  lemma TowardEntry(cache: Path, slot: ZipSlot, fs: FileSystem, fs': FileSystem)
    requires slot.Stored? && ExtractsToward(EntryKey(cache, slot.name), fs, fs')
    ensures Extracts(cache, fs, [slot], fs')
  {
    forall k | k in fs'.nodes && (k !in fs.nodes || fs'.nodes[k] != fs.nodes[k])
      ensures Reaches(cache, [slot], k)
    {
      assert SlotReaches(cache, [slot][0], k);
    }
  }

  /** A directory entry: `create_dir_all` on its target. */
  function DirEntryStep(key: Key, fs: FileSystem): (r: (FileSystem, Option<IoError>))
    ensures ExtractsToward(key, fs, r.0)
    ensures r.1.Some? ==> Keeps(fs, r.0)
    ensures r.1.None? ==> IsDir(r.0, key)
  {
    var (fs1, err) := CreateDirAll(fs, key);
    assert key[..|key|] == key;
    (fs1, err)
  }

  /** A file entry: `create_dir_all` on the parent, then the contents are read,
      then `File::create` and `write_all`. */
  function FileEntryStep(key: Key, fs: FileSystem, data: Result<seq<Utf8.byte>, IoError>): (r: (FileSystem, Option<IoError>))
    ensures ExtractsToward(key, fs, r.0)
    ensures r.1.Some? ==> Keeps(fs, r.0) || (r.1.value == ErrNoSpace && LeftEmpty(fs, r.0, key))
    ensures r.1.None? ==> data.Ok? && IsFile(r.0, key) && r.0.nodes[key].bytes == data.value
  {
    var (fs1, mkErr) := ParentDirsStep(key, fs);
    if mkErr.Some? then (fs1, mkErr)
    else
      match data
      case Err(e) => (fs1, Some(e))
      case Ok(bytes) =>
        var (fs2, writeErr) := WriteFile(fs1, key, bytes);
        WriteToward(key, fs, fs1, bytes);
        (fs2, writeErr)
  }

  /** The `create_dir_all` on a file entry's parent. */
  function ParentDirsStep(key: Key, fs: FileSystem): (r: (FileSystem, Option<IoError>))
    ensures ExtractsToward(key, fs, r.0)
    ensures Keeps(fs, r.0)
  {
    var (fs1, mkErr) := if |key| > 0 then CreateDirAll(fs, Parent(key)) else (fs, None);
    assert forall k :: |key| > 0 && IsPrefix(k, Parent(key)) ==> IsPrefix(k, key);
    (fs1, mkErr)
  }

  /** Writing the entry's file after its parent directories keeps to the entry. */
  lemma WriteToward(key: Key, fs: FileSystem, fs1: FileSystem, bytes: seq<Utf8.byte>)
    requires ExtractsToward(key, fs, fs1) && Keeps(fs, fs1)
    ensures ExtractsToward(key, fs, WriteFile(fs1, key, bytes).0)
  {
    assert IsPrefix(key, key);
  }

  /** One pass of the loop in `extract_bundle`: a directory entry is created
      with its ancestors; a file entry gets its parent directories, then its
      contents are read and written out. Every failure is a
      `BinaryExtraction`. */
  function ExtractStep(cache: Path, fs: FileSystem, slot: ZipSlot): (r: (FileSystem, Option<PlantUmlError>))
    ensures Extracts(cache, fs, [slot], r.0)
    ensures r.1.Some? ==> r.1.value.BinaryExtraction?
    ensures r.1.Some? ==>
      || Keeps(fs, r.0)
      || (slot.Stored? && !IsDirEntry(slot.name) && r.1.value.cause == ErrNoSpace && LeftEmpty(fs, r.0, EntryKey(cache, slot.name)))
    ensures r.1.None? && slot.Stored? && IsDirEntry(slot.name) ==> IsDir(r.0, EntryKey(cache, slot.name))
    ensures r.1.None? && slot.Stored? && !IsDirEntry(slot.name) ==>
      && slot.data.Ok?
      && IsFile(r.0, EntryKey(cache, slot.name))
      && r.0.nodes[EntryKey(cache, slot.name)].bytes == slot.data.value
    ensures r.1.None? ==> slot.Stored?
  {
    match slot
    case Unreadable(cause) => (fs, Some(BinaryExtraction(IoError(InvalidData, cause))))
    case Stored(name, data) =>
      var key := EntryKey(cache, name);
      var (fs1, err) := if IsDirEntry(name) then DirEntryStep(key, fs) else FileEntryStep(key, fs, data);
      TowardEntry(cache, slot, fs, fs1);
      if err.Some? then (fs1, Some(BinaryExtraction(err.value))) else (fs1, None)
  }

  /** The loop of `extract_bundle`: entries in archive order, stopping at the
      first failure with what has been written so far left in place. */
  function ExtractEntries(cache: Path, fs: FileSystem, slots: seq<ZipSlot>): (r: (FileSystem, Option<PlantUmlError>))
    ensures Extracts(cache, fs, slots, r.0)
    ensures r.1.Some? ==> r.1.value.BinaryExtraction?
    decreases |slots|
  {
    if |slots| == 0 then (fs, None)
    else
      var (fs1, err) := ExtractStep(cache, fs, slots[0]);
      ReachesFirst(cache, slots);
      if err.Some? then (fs1, err)
      else
        var r := ExtractEntries(cache, fs1, slots[1..]);
        ReachesRest(cache, slots);
        ExtractsTrans(cache, fs, fs1, r.0, slots);
        r
  }

  lemma ReachesFirst(cache: Path, slots: seq<ZipSlot>)
    requires |slots| > 0
    ensures forall k :: Reaches(cache, [slots[0]], k) ==> Reaches(cache, slots, k)
  {
    forall k | Reaches(cache, [slots[0]], k) ensures Reaches(cache, slots, k) {
      assert SlotReaches(cache, slots[0], k);
    }
  }

  lemma ReachesRest(cache: Path, slots: seq<ZipSlot>)
    requires |slots| > 0
    ensures forall k :: Reaches(cache, slots[1..], k) ==> Reaches(cache, slots, k)
  {
    forall k | Reaches(cache, slots[1..], k) ensures Reaches(cache, slots, k) {
      var i :| 0 <= i < |slots| - 1 && SlotReaches(cache, slots[1..][i], k);
      assert SlotReaches(cache, slots[i + 1], k);
    }
  }

  /** Running the first entry and then the rest extracts the whole list. */
  lemma ExtractsTrans(cache: Path, fs: FileSystem, fs1: FileSystem, fs2: FileSystem, slots: seq<ZipSlot>)
    requires |slots| > 0
    requires Extracts(cache, fs, [slots[0]], fs1) && Extracts(cache, fs1, slots[1..], fs2)
    requires forall k :: Reaches(cache, [slots[0]], k) ==> Reaches(cache, slots, k)
    requires forall k :: Reaches(cache, slots[1..], k) ==> Reaches(cache, slots, k)
    ensures Extracts(cache, fs, slots, fs2)
  {
    ChangesTrans(cache, fs, fs1, fs2, slots);
    ModesTrans(fs, fs1, fs2);
  }

  lemma ChangesTrans(cache: Path, fs: FileSystem, fs1: FileSystem, fs2: FileSystem, slots: seq<ZipSlot>)
    requires |slots| > 0
    requires forall k :: k in fs1.nodes && (k !in fs.nodes || fs1.nodes[k] != fs.nodes[k]) ==> Reaches(cache, [slots[0]], k)
    requires forall k :: k in fs2.nodes && (k !in fs1.nodes || fs2.nodes[k] != fs1.nodes[k]) ==> Reaches(cache, slots[1..], k)
    requires forall k :: Reaches(cache, [slots[0]], k) ==> Reaches(cache, slots, k)
    requires forall k :: Reaches(cache, slots[1..], k) ==> Reaches(cache, slots, k)
    ensures forall k :: k in fs2.nodes && (k !in fs.nodes || fs2.nodes[k] != fs.nodes[k]) ==> Reaches(cache, slots, k)
  {
    forall k | k in fs2.nodes && (k !in fs.nodes || fs2.nodes[k] != fs.nodes[k])
      ensures Reaches(cache, slots, k)
    {
      if k !in fs1.nodes || fs2.nodes[k] != fs1.nodes[k] {
        assert Reaches(cache, slots[1..], k);
      } else {
        assert Reaches(cache, [slots[0]], k);
      }
    }
  }

  lemma ModesTrans(fs: FileSystem, fs1: FileSystem, fs2: FileSystem)
    requires forall k :: IsFile(fs, k) ==> IsFile(fs1, k)
    requires forall k :: IsFile(fs1, k) ==> fs1.nodes[k].mode == (if IsFile(fs, k) then fs.nodes[k].mode else NewFileMode)
    requires forall k :: IsFile(fs2, k) ==> fs2.nodes[k].mode == (if IsFile(fs1, k) then fs1.nodes[k].mode else NewFileMode)
    ensures forall k :: IsFile(fs2, k) ==> fs2.nodes[k].mode == (if IsFile(fs, k) then fs.nodes[k].mode else NewFileMode)
  {
    forall k | IsFile(fs2, k)
      ensures fs2.nodes[k].mode == (if IsFile(fs, k) then fs.nodes[k].mode else NewFileMode)
    {
      if IsFile(fs, k) {
        assert IsFile(fs1, k);
      }
    }
  }

  /** Extracting `a + b` is extracting `a` and then, if that finished,
      extracting `b` on the result. */
  lemma {:induction false} ExtractAppend(cache: Path, fs: FileSystem, a: seq<ZipSlot>, b: seq<ZipSlot>)
    ensures var ra := ExtractEntries(cache, fs, a);
      ExtractEntries(cache, fs, a + b) == if ra.1.Some? then ra else ExtractEntries(cache, ra.0, b)
    decreases |a|
  {
    if |a| == 0 {
      assert a + b == b;
    } else {
      assert (a + b)[0] == a[0];
      assert (a + b)[1..] == a[1..] + b;
      var (fs1, err) := ExtractStep(cache, fs, a[0]);
      if err.None? {
        ExtractAppend(cache, fs1, a[1..], b);
      }
    }
  }

  /** A finished extraction leaves every directory entry in place as a
      directory, with its ancestors. */
  lemma {:induction false} DirEntriesExist(cache: Path, fs: FileSystem, slots: seq<ZipSlot>, i: nat)
    requires ExtractEntries(cache, fs, slots).1.None?
    requires i < |slots| && slots[i].Stored? && IsDirEntry(slots[i].name)
    ensures IsDir(ExtractEntries(cache, fs, slots).0, EntryKey(cache, slots[i].name))
    decreases |slots|
  {
    var (fs1, err) := ExtractStep(cache, fs, slots[0]);
    var rest := ExtractEntries(cache, fs1, slots[1..]);
    assert err.None? && ExtractEntries(cache, fs, slots) == rest;
    if i == 0 {
      assert IsDir(fs1, EntryKey(cache, slots[0].name));
      assert Extracts(cache, fs1, slots[1..], rest.0);
    } else {
      assert slots[1..][i - 1] == slots[i];
      DirEntriesExist(cache, fs1, slots[1..], i - 1);
    }
  }

  /** A finished extraction leaves each file entry's bytes at its target,
      unless a later entry has the same target: the last one wins. */
  lemma {:induction false} FileEntriesHoldLastBytes(cache: Path, fs: FileSystem, slots: seq<ZipSlot>, i: nat)
    requires ExtractEntries(cache, fs, slots).1.None?
    requires i < |slots| && slots[i].Stored? && !IsDirEntry(slots[i].name)
    requires forall j :: i < j < |slots| && slots[j].Stored? ==> EntryKey(cache, slots[j].name) != EntryKey(cache, slots[i].name)
    ensures slots[i].data.Ok?
    ensures var fs' := ExtractEntries(cache, fs, slots).0;
      IsFile(fs', EntryKey(cache, slots[i].name)) && fs'.nodes[EntryKey(cache, slots[i].name)].bytes == slots[i].data.value
    decreases |slots|
  {
    var (fs1, _) := ExtractStep(cache, fs, slots[0]);
    if i == 0 {
      FileSurvives(cache, fs1, slots[1..], EntryKey(cache, slots[0].name));
    } else {
      DirEntriesOrFiles(slots, i);
      FileEntriesHoldLastBytes(cache, fs1, slots[1..], i - 1);
    }
  }

  lemma DirEntriesOrFiles(slots: seq<ZipSlot>, i: nat)
    requires 0 < i < |slots|
    ensures slots[1..][i - 1] == slots[i]
    ensures forall j :: i - 1 < j < |slots| - 1 ==> slots[1..][j] == slots[j + 1]
  {
  }

  /** A file no entry aims at keeps its contents, whether the extraction
      finished or stopped part-way. */
  lemma {:induction false} FileSurvives(cache: Path, fs: FileSystem, slots: seq<ZipSlot>, k: Key)
    requires IsFile(fs, k)
    requires forall j :: 0 <= j < |slots| && slots[j].Stored? ==> EntryKey(cache, slots[j].name) != k
    ensures IsFile(ExtractEntries(cache, fs, slots).0, k)
    ensures ExtractEntries(cache, fs, slots).0.nodes[k] == fs.nodes[k]
    decreases |slots|
  {
    if |slots| > 0 {
      var (fs1, err) := ExtractStep(cache, fs, slots[0]);
      FileStepSurvives(cache, fs, slots[0], k);
      if err.None? {
        FileSurvives(cache, fs1, slots[1..], k);
      }
    }
  }

  /** One step leaves a file alone unless it aims at it: a failed step
      changes at most its own target, and anything a finished step creates on
      the way lies strictly above its target, where a file would have stopped
      it. */
  lemma FileStepSurvives(cache: Path, fs: FileSystem, slot: ZipSlot, k: Key)
    requires IsFile(fs, k)
    requires slot.Stored? ==> EntryKey(cache, slot.name) != k
    ensures IsFile(ExtractStep(cache, fs, slot).0, k)
    ensures ExtractStep(cache, fs, slot).0.nodes[k] == fs.nodes[k]
  {
    if ExtractStep(cache, fs, slot).1.None? {
      var key := EntryKey(cache, slot.name);
      if IsDirEntry(slot.name) {
        CreateDirAllKeepsFiles(fs, key);
      } else if |key| > 0 {
        CreateDirAllKeepsFiles(fs, Parent(key));
      }
    }
  }

  /** `create_dir_all` changes no existing node. */
  lemma CreateDirAllKeepsFiles(fs: FileSystem, k: Key)
    ensures forall x :: x in fs.nodes ==> CreateDirAll(fs, k).0.nodes[x] == fs.nodes[x]
  {
  }

  /** `extract_bundle`: take the fast path when both files are already there;
      otherwise create the cache directory, open the bundle and unpack it.
      The result is the cache directory. */
  function ExtractBundle(env: Env, fs: FileSystem): (r: (FileSystem, Result<Path, PlantUmlError>))
    ensures var p := PathsIn(CacheDir(env));
      Exists(fs, KeyOf(p.javaExe)) && Exists(fs, KeyOf(p.plantumlJar)) ==> r == (fs, Ok(CacheDir(env)))
    ensures r.1.Ok? ==> r.1.value == CacheDir(env)
    ensures r.1.Err? ==> r.1.error.BinaryExtraction?
    ensures var p := PathsIn(CacheDir(env));
      !(Exists(fs, KeyOf(p.javaExe)) && Exists(fs, KeyOf(p.plantumlJar))) ==>
        var (fs1, mkErr) := CreateDirAll(fs, KeyOf(CacheDir(env)));
        && (mkErr.Some? ==> r == (fs1, Err(BinaryExtraction(mkErr.value))))
        && (mkErr.None? && env.bundle.NotAZip? ==> r == (fs1, Err(BinaryExtraction(IoError(InvalidData, env.bundle.cause)))))
        && (mkErr.None? && env.bundle.ZipEntries? ==>
              var (fs2, err) := ExtractEntries(CacheDir(env), fs1, env.bundle.slots);
              r == (fs2, if err.Some? then Err(err.value) else Ok(CacheDir(env))))
    ensures Valid(fs) ==> Valid(r.0)
    ensures r.0.denied == fs.denied
    ensures forall k :: IsDir(fs, k) ==> IsDir(r.0, k)
  {
    var cache := CacheDir(env);
    var p := PathsIn(cache);
    if Exists(fs, KeyOf(p.javaExe)) && Exists(fs, KeyOf(p.plantumlJar)) then (fs, Ok(cache))
    else
      var (fs1, mkErr) := CreateDirAll(fs, KeyOf(cache));
      if mkErr.Some? then (fs1, Err(BinaryExtraction(mkErr.value)))
      else
        match env.bundle
        case NotAZip(cause) => (fs1, Err(BinaryExtraction(IoError(InvalidData, cause))))
        case ZipEntries(slots) =>
          var (fs2, err) := ExtractEntries(cache, fs1, slots);
          if err.Some? then (fs2, Err(err.value)) else (fs2, Ok(cache))
  }

  /** After unpacking, the fast path can only fire when the executable's
      name was already there or some entry aimed at it or below it. A bundle
      without a `jre/bin/java.exe` entry, such as a Linux or macOS JRE,
      is therefore unpacked again on every run. */
  lemma FastPathNeedsJavaExeEntry(env: Env, fs: FileSystem)
    requires env.bundle.ZipEntries?
    requires !Exists(fs, KeyOf(PathsIn(CacheDir(env)).javaExe))
    requires Exists(ExtractBundle(env, fs).0, KeyOf(PathsIn(CacheDir(env)).javaExe))
    ensures Reaches(CacheDir(env), env.bundle.slots, KeyOf(PathsIn(CacheDir(env)).javaExe))
  {
    var cache := CacheDir(env);
    var java := KeyOf(PathsIn(cache).javaExe);
    var (fs1, mkErr) := CreateDirAll(fs, KeyOf(cache));
    CreateDirAllOnlyAbove(fs, KeyOf(cache), java);
    assert java !in fs1.nodes;
    assert mkErr.None?;
    var (fs2, _) := ExtractEntries(cache, fs1, env.bundle.slots);
    assert ExtractBundle(env, fs).0 == fs2;
    assert java in fs2.nodes;
  }

  /** `create_dir_all` adds nothing longer than the path it was given. */
  lemma CreateDirAllOnlyAbove(fs: FileSystem, k: Key, x: Key)
    requires |x| > |k| && x !in fs.nodes
    ensures x !in CreateDirAll(fs, k).0.nodes
  {
  }

  /** The memo behind `EXTRACTED_DIR`: the directory of the first successful
      resolution in this process, if any. */
  datatype Process = Process(fs: FileSystem, extracted: Option<Path>)

  /** `get_bundle_paths`: resolve the directory at most once per process and
      return the two paths in it. A failure is returned and not remembered. */
  function GetBundlePaths(env: Env, proc: Process): (r: (Process, Result<BundlePaths, PlantUmlError>))
    ensures proc.extracted.Some? ==> r == (proc, Ok(PathsIn(proc.extracted.value)))
    ensures proc.extracted.None? && r.1.Ok? ==>
      r.0.extracted == Some(CacheDir(env)) && r.1.value == PathsIn(CacheDir(env))
    ensures r.1.Err? ==> r.0.extracted.None? && r.1.error.BinaryExtraction?
  {
    match proc.extracted
    case Some(dir) => (proc, Ok(PathsIn(dir)))
    case None =>
      var (fs1, res) := ExtractBundle(env, proc.fs);
      match res
      case Ok(dir) => (Process(fs1, Some(dir)), Ok(PathsIn(dir)))
      case Err(e) => (Process(fs1, None), Err(e))
  }

  /** Once resolved, later calls return the same paths and touch nothing. */
  lemma ResolvedOnce(env: Env, proc: Process)
    requires GetBundlePaths(env, proc).1.Ok?
    ensures var (proc1, r1) := GetBundlePaths(env, proc);
      GetBundlePaths(env, proc1) == (proc1, r1)
  {
  }

  /** A failed resolution leaves the memo empty, so the next call extracts
      again, now on the filesystem the failed attempt left behind. */
  lemma FailureRetried(env: Env, proc: Process)
    requires proc.extracted.None? && GetBundlePaths(env, proc).1.Err?
    ensures var proc1 := GetBundlePaths(env, proc).0;
      GetBundlePaths(env, proc1) == (
        var (fs2, res) := ExtractBundle(env, proc1.fs);
        if res.Ok? then (Process(fs2, Some(res.value)), Ok(PathsIn(res.value)))
        else (Process(fs2, None), Err(res.error)))
  {
  }

  /** A new process on a cache that an earlier process filled takes the fast
      path: no filesystem change, same directory. */
  lemma FilledCacheIsReused(env: Env, fs: FileSystem)
    requires var p := PathsIn(CacheDir(env));
      Exists(fs, KeyOf(p.javaExe)) && Exists(fs, KeyOf(p.plantumlJar))
    ensures GetBundlePaths(env, Process(fs, None)) ==
      (Process(fs, Some(CacheDir(env))), Ok(PathsIn(CacheDir(env))))
  {
  }
}

=== FILE: build.dfy ===
/** The bundle builder (build.rs): picks the JRE for the target platform and
    repackages the PlantUML JAR and that JRE into one zip, `plantuml.jar` at the
    root and the JRE under `jre/`. Downloads and the zip, gzip and tar codecs
    are inputs: a download is the bytes (or the failure) it produced, and an
    archive is the sequence of entries its reader yields. */
module Build {
  import opened Wrappers
  import opened Text
  import opened Paths
  import opened Fs
  import opened Archive
  import Utf8
  import Errors

  const PlantumlVersion := "1.2025.10"
  const PlantumlJarUrl :=
    "https://github.com/plantuml/plantuml/releases/download/v1.2025.10/plantuml-1.2025.10.jar"

  /** The five targets the builder knows. */
  datatype Target = WindowsX64 | LinuxX64 | LinuxAarch64 | MacosX64 | MacosAarch64

  /** The (os, arch) pair each target stands for. */
  function OsArch(t: Target): (string, string) {
    match t
    case WindowsX64 => ("windows", "x86_64")
    case LinuxX64 => ("linux", "x86_64")
    case LinuxAarch64 => ("linux", "aarch64")
    case MacosX64 => ("macos", "x86_64")
    case MacosAarch64 => ("macos", "aarch64")
  }

  /** The Temurin 21 JRE download for each target: a zip for Windows, a
      gzipped tarball for the others. Every URL is this release directory and
      file-name head, the target's arch and os, the build, and the extension. */
  const TemurinRelease := "https://github.com/adoptium/temurin21-binaries/releases/download/jdk-21.0.5%2B11/OpenJDK21U-jre_"

  function JreUrl(t: Target): (r: string)
    ensures t == WindowsX64 ==> EndsWith(r, ".zip")
    ensures t != WindowsX64 ==> EndsWith(r, ".tar.gz")
  {
    var stem := match t
      case WindowsX64 => "x64_windows"
      case LinuxX64 => "x64_linux"
      case LinuxAarch64 => "aarch64_linux"
      case MacosX64 => "x64_mac"
      case MacosAarch64 => "aarch64_mac";
    var ext := if t == WindowsX64 then ".zip" else ".tar.gz";
    EndsWithAppend(TemurinRelease + stem + "_hotspot_21.0.5_11" + ext, TemurinRelease + stem + "_hotspot_21.0.5_11", ext);
    TemurinRelease + stem + "_hotspot_21.0.5_11" + ext
  }

  /** Where the JAR goes in the bundle, and the directory the JRE goes under. */
  const JarName := "plantuml.jar"
  const JrePrefix := "jre/"

  /** The mode a tar entry gets when its header's mode field cannot be read (0o644). */
  const FallbackTarMode: nat := 0x1A4

  /** The platform table: the JRE to fetch, whether it is a gzipped tarball
      (otherwise a zip), and whether it has the macOS `Contents/Home` layout. */
  datatype Platform = Platform(target: Target, isTarball: bool, isMacos: bool)

  /** The (os, arch) pairs the builder accepts. */
  const SupportedTargets: set<(string, string)> := {
    ("windows", "x86_64"), ("linux", "x86_64"), ("linux", "aarch64"),
    ("macos", "x86_64"), ("macos", "aarch64")
  }

  function SelectPlatform(os: string, arch: string): (r: Result<Platform, string>)
    ensures r.Ok? <==> (os, arch) in SupportedTargets
    ensures r.Ok? ==> OsArch(r.value.target) == (os, arch)
    ensures r.Ok? ==> (!r.value.isTarball <==> os == "windows" && arch == "x86_64")
    ensures r.Ok? ==> (r.value.isMacos <==> os == "macos")
    ensures r.Err? ==> StartsWith(r.error, "Unsupported platform: " + os + "-" + arch + ".")
  {
    if os == "windows" && arch == "x86_64" then Ok(Platform(WindowsX64, false, false))
    else if os == "linux" && arch == "x86_64" then Ok(Platform(LinuxX64, true, false))
    else if os == "linux" && arch == "aarch64" then Ok(Platform(LinuxAarch64, true, false))
    else if os == "macos" && arch == "x86_64" then Ok(Platform(MacosX64, true, true))
    else if os == "macos" && arch == "aarch64" then Ok(Platform(MacosAarch64, true, true))
    else
      assert (os, arch) !in SupportedTargets;
      Err(UnsupportedMessage(os, arch))
  }

  /** The panic message for a target outside the table. */
  function UnsupportedMessage(os: string, arch: string): (m: string)
    ensures StartsWith(m, "Unsupported platform: " + os + "-" + arch + ".")
  {
    var head := "Unsupported platform: " + os + "-" + arch + ".";
    var tail := " Supported: windows-x86_64, linux-x86_64, linux-aarch64, macos-x86_64, macos-aarch64";
    StartsWithAppend(head + tail, head, tail);
    head + tail
  }

  // ---------------------------------------------------------------------
  // Per-entry rewriting rules

  /** Drops the JRE's top-level directory: everything after the first `/`,
      or the whole name when it has none. */
  function StripTopDir(name: string): (r: string)
    ensures '/' !in name ==> r == name
    ensures '/' in name ==>
      && |r| < |name|
      && name == name[..|name| - |r| - 1] + "/" + r
      && '/' !in name[..|name| - |r| - 1]
  {
    match SplitOnce(name, '/')
    case Some((_, rest)) => rest
    case None => name
  }

  /** The macOS JRE keeps its payload under `Contents/Home`: strip
      `Contents/Home/`, or failing that a bare `Contents/Home` prefix. */
  function StripMacosHome(rel: string): (r: string)
    ensures StartsWith(rel, "Contents/Home/") ==> rel == "Contents/Home/" + r
    ensures !StartsWith(rel, "Contents/Home/") && StartsWith(rel, "Contents/Home") ==> rel == "Contents/Home" + r
    ensures !StartsWith(rel, "Contents/Home") ==> r == rel
  {
    assert StartsWith(rel, "Contents/Home/") ==> rel[..13] == rel[..14][..13];
    match StripPrefix(rel, "Contents/Home/")
    case Some(rest) => rest
    case None =>
      match StripPrefix(rel, "Contents/Home")
      case Some(rest) => rest
      case None => rel
  }

  /** Paths dropped after stripping: nothing left, or only the `Contents` wrapper. */
  predicate IsResidue(rel: string) {
    rel == "" || rel == "Contents" || rel == "Contents/"
  }

  /** What `create_bundle_zip_from_zip` does with one JRE zip entry:
      skip it, emit a bundle entry, or panic. */
  function ZipStep(slot: ZipSlot): (r: Result<Option<BundleEntry>, string>)
    ensures r.Ok? && r.value.Some? ==> slot.Stored? && StartsWith(r.value.value.name, JrePrefix)
    ensures r.Ok? && r.value.Some? ==> (r.value.value.BundleDir? <==> EndsWithChar(slot.name, '/'))
    ensures r.Ok? && r.value.Some? && r.value.value.BundleFile? ==>
      slot.data == Ok(r.value.value.data) && r.value.value.mode == None
    ensures slot.Unreadable? ==> r.Err?
    ensures slot.Stored? && StripTopDir(slot.name) != "" && !EndsWithChar(slot.name, '/') && slot.data.Err? ==> r.Err?
  {
    match slot
    case Unreadable(cause) => Err("Failed to read JRE ZIP entry: " + cause)
    case Stored(name, data) =>
      var rel := StripTopDir(name);
      if rel == "" then Ok(None)
      else if EndsWithChar(name, '/') then Ok(Some(BundleDir(JrePrefix + rel)))
      else
        match data
        case Err(e) => Err("Failed to read JRE file: " + e.text)
        case Ok(bytes) => Ok(Some(BundleFile(JrePrefix + rel, bytes, None)))
  }

  /** A tar entry's type as the tar reader reports it. */
  datatype TarKind = Directory | Regular | Symlink | OtherKind

  /** One item of the tar entry iterator: the reader fails on it, fails to
      decode its path, or yields its path, type, header mode (if readable) and
      contents (or the failure reading them). */
  datatype TarSlot =
    | BadEntry(cause: string)
    | BadPath(cause: string)
    | TarItem(path: string, kind: TarKind, mode: Option<nat>, data: Result<seq<Utf8.byte>, Errors.IoError>)

  /** What `Archive::entries` makes of the gunzipped bytes. The tar reader
      only refuses to start iterating when the stream is not at its start; a
      corrupt gzip or tar stream instead fails at the first item, as a
      `BadEntry`. */
  datatype TarSource = NotATar(cause: string) | TarEntries(slots: seq<TarSlot>)

  /** Where the tarball path puts an entry, relative to `jre/`: `None` when it
      is dropped (the top directory itself, or the `Contents` wrapper, which is
      dropped on every platform). */
  function TarRelPath(isMacos: bool, path: string): (r: Option<string>)
    ensures r.Some? ==> !IsResidue(r.value)
  {
    var rel0 := StripTopDir(path);
    if rel0 == "" then None
    else
      var rel := if isMacos then StripMacosHome(rel0) else rel0;
      if IsResidue(rel) then None else Some(rel)
  }

  /** What `create_bundle_zip_from_tarball` does with one tar entry. `unixHost`
      says whether the build itself runs on Unix, where the entry's mode is
      passed on. */
  function TarStep(isMacos: bool, unixHost: bool, slot: TarSlot): (r: Result<Option<BundleEntry>, string>)
    ensures slot.TarItem? && (slot.kind == Symlink || slot.kind == OtherKind) ==> r == Ok(None)
    ensures slot.TarItem? && TarRelPath(isMacos, slot.path).None? ==> r == Ok(None)
    ensures r.Ok? && r.value.Some? ==>
      slot.TarItem? && TarRelPath(isMacos, slot.path).Some?
      && r.value.value.name == JrePrefix + TarRelPath(isMacos, slot.path).value
    ensures r.Ok? && r.value.Some? && r.value.value.BundleDir? ==> slot.kind == Directory
    ensures r.Ok? && r.value.Some? && r.value.value.BundleFile? ==>
      && slot.kind == Regular
      && slot.data == Ok(r.value.value.data)
      && r.value.value.mode == (if unixHost then Some(slot.mode.GetOr(FallbackTarMode)) else None)
    ensures slot.TarItem? && TarRelPath(isMacos, slot.path).Some? && slot.kind == Directory ==> r.Ok? && r.value.Some?
    ensures slot.TarItem? && TarRelPath(isMacos, slot.path).Some? && slot.kind == Regular && slot.data.Ok? ==> r.Ok? && r.value.Some?
    ensures slot.TarItem? && TarRelPath(isMacos, slot.path).Some? && slot.kind == Regular && slot.data.Err? ==> r.Err?
    ensures slot.BadEntry? || slot.BadPath? ==> r.Err?
  {
    match slot
    case BadEntry(cause) => Err("Failed to read tarball entry: " + cause)
    case BadPath(cause) => Err("Failed to get entry path: " + cause)
    case TarItem(path, kind, mode, data) =>
      match TarRelPath(isMacos, path)
      case None => Ok(None)
      case Some(rel) =>
        if kind == Directory then Ok(Some(BundleDir(JrePrefix + rel)))
        else if kind == Regular then
          match data
          case Err(e) => Err("Failed to read tarball file: " + e.text)
          case Ok(bytes) =>
            Ok(Some(BundleFile(JrePrefix + rel, bytes, if unixHost then Some(mode.GetOr(FallbackTarMode)) else None)))
        else Ok(None)
  }

  // ---------------------------------------------------------------------
  // The two pipelines

  /** What the zip writer's `add_directory` and `start_file` report when
      given a name they already hold. */
  const DuplicateCause := "Duplicate filename"

  /** The panic for an entry the writer refuses as a duplicate. */
  function DuplicatePanic(e: BundleEntry): string {
    (if e.BundleDir? then "Failed to add directory to bundle: " else "Failed to add file to bundle: ") + DuplicateCause
  }

  /** Runs `step` over the entries in order and hands what it emits to the
      writer, which already holds the names in `written`: skipped entries
      vanish, emitted ones are appended, and the first panic ends the run,
      whether `step` raised it or the writer refused a name it holds. */
  function Collect<S>(slots: seq<S>, step: S -> Result<Option<BundleEntry>, string>, written: set<string>): (r: Result<seq<BundleEntry>, string>)
    ensures r.Ok? ==> FreshNames(r.value, written)
    decreases |slots|
  {
    if |slots| == 0 then Ok([])
    else
      match step(slots[0])
      case Err(msg) => Err(msg)
      case Ok(None) => Collect(slots[1..], step, written)
      case Ok(Some(e)) =>
        if WrittenAs(e).name in written then Err(DuplicatePanic(e))
        else
          match Collect(slots[1..], step, written + {WrittenAs(e).name})
          case Err(msg) => Err(msg)
          case Ok(rest) =>
            FreshCons(e, rest, written);
            Ok([e] + rest)
  }

  /** What `step` emits over the entries, in order, when none of the steps
      panics: the run with no writer behind it. */
  function Emitted<S>(slots: seq<S>, step: S -> Result<Option<BundleEntry>, string>): Result<seq<BundleEntry>, string> {
    if |slots| == 0 then Ok([])
    else
      match step(slots[0])
      case Err(msg) => Err(msg)
      case Ok(emitted) =>
        match Emitted(slots[1..], step)
        case Err(msg) => Err(msg)
        case Ok(rest) => Ok((if emitted.Some? then [emitted.value] else []) + rest)
  }

  /** The writer lets a run finish exactly when no step panics and the
      emitted names are all different and new to it; the bundle is then what
      the steps emitted. */
  lemma {:induction false} CollectIffFresh<S>(slots: seq<S>, step: S -> Result<Option<BundleEntry>, string>, written: set<string>)
    ensures Collect(slots, step, written).Ok? <==>
      Emitted(slots, step).Ok? && FreshNames(Emitted(slots, step).value, written)
    ensures Collect(slots, step, written).Ok? ==> Collect(slots, step, written) == Emitted(slots, step)
    decreases |slots|
  {
    if |slots| > 0 {
      match step(slots[0])
      case Err(_) =>
      case Ok(None) =>
        CollectIffFresh(slots[1..], step, written);
        if Emitted(slots[1..], step).Ok? {
          assert [] + Emitted(slots[1..], step).value == Emitted(slots[1..], step).value;
        }
      case Ok(Some(e)) =>
        var n := WrittenAs(e).name;
        CollectIffFresh(slots[1..], step, written + {n});
        if Emitted(slots[1..], step).Ok? {
          FreshCons(e, Emitted(slots[1..], step).value, written);
        }
    }
  }

  /** Running over two runs of entries is running over the first, then the
      second with the first one's names held, appending what each emits: the
      output keeps the input's order. */
  lemma {:induction false} CollectAppend<S>(a: seq<S>, b: seq<S>, step: S -> Result<Option<BundleEntry>, string>, written: set<string>)
    ensures Collect(a + b, step, written) ==
      match Collect(a, step, written)
      case Err(msg) => Err(msg)
      case Ok(x) =>
        match Collect(b, step, written + NamesOf(x))
        case Err(msg) => Err(msg)
        case Ok(y) => Ok(x + y)
    decreases |a|
  {
    if |a| == 0 {
      assert a + b == b;
      assert written + NamesOf([]) == written;
      match Collect(b, step, written)
      case Err(_) =>
      case Ok(y) => assert [] + y == y;
    } else {
      assert (a + b)[0] == a[0];
      assert (a + b)[1..] == a[1..] + b;
      match step(a[0])
      case Err(_) =>
      case Ok(None) =>
        CollectAppend(a[1..], b, step, written);
      case Ok(Some(e)) =>
        var n := WrittenAs(e).name;
        if n !in written {
          CollectAppend(a[1..], b, step, written + {n});
          match Collect(a[1..], step, written + {n})
          case Err(_) =>
          case Ok(x) =>
            NamesOfCons(e, x);
            assert written + {n} + NamesOf(x) == written + NamesOf([e] + x);
            match Collect(b, step, written + {n} + NamesOf(x))
            case Err(_) =>
            case Ok(y) => assert [e] + (x + y) == ([e] + x) + y;
        }
    }
  }

  /** Every bundle entry the run emits was emitted by `step` for some entry. */
  lemma {:induction false} CollectOnlyEmits<S>(slots: seq<S>, step: S -> Result<Option<BundleEntry>, string>, written: set<string>, e: BundleEntry)
    requires Collect(slots, step, written).Ok? && e in Collect(slots, step, written).value
    ensures exists i :: 0 <= i < |slots| && step(slots[i]) == Ok(Some(e))
    decreases |slots|
  {
    var emitted := step(slots[0]).value;
    if emitted == Some(e) {
      assert step(slots[0]) == Ok(Some(e));
    } else {
      var w := if emitted.Some? then written + {WrittenAs(emitted.value).name} else written;
      var rest := Collect(slots[1..], step, w).value;
      assert e in rest;
      CollectOnlyEmits(slots[1..], step, w, e);
      var i :| 0 <= i < |slots[1..]| && step(slots[1..][i]) == Ok(Some(e));
      assert slots[1..][i] == slots[i + 1];
    }
  }

  function JarEntry(jar: seq<Utf8.byte>): BundleEntry {
    BundleFile(JarName, jar, None)
  }

  /** `create_bundle_zip_from_zip`: the entries written, or the panic message. */
  function ZipBundle(jar: seq<Utf8.byte>, jre: ZipSource): (r: Result<seq<BundleEntry>, string>)
    ensures jre.NotAZip? ==> r.Err?
    ensures jre.ZipEntries? ==> (r.Ok? <==> Collect(jre.slots, ZipStep, {JarName}).Ok?)
    ensures r.Ok? ==> |r.value| >= 1 && r.value[0] == JarEntry(jar)
    ensures r.Ok? && jre.ZipEntries? ==> Collect(jre.slots, ZipStep, {JarName}) == Ok(r.value[1..])
    ensures r.Ok? ==> FreshNames(r.value, {})
  {
    match jre
    case NotAZip(cause) => Err("Failed to open JRE ZIP: " + cause)
    case ZipEntries(slots) =>
      var rest :- Collect(slots, ZipStep, {JarName});
      FreshCons(JarEntry(jar), rest, {});
      assert {} + {JarName} == {JarName};
      Ok([JarEntry(jar)] + rest)
  }

  /** `create_bundle_zip_from_tarball`. */
  function TarBundle(jar: seq<Utf8.byte>, jre: TarSource, isMacos: bool, unixHost: bool): (r: Result<seq<BundleEntry>, string>)
    ensures jre.NotATar? ==> r.Err?
    ensures jre.TarEntries? ==> (r.Ok? <==> Collect(jre.slots, s => TarStep(isMacos, unixHost, s), {JarName}).Ok?)
    ensures r.Ok? ==> |r.value| >= 1 && r.value[0] == JarEntry(jar)
    ensures r.Ok? && jre.TarEntries? ==> Collect(jre.slots, s => TarStep(isMacos, unixHost, s), {JarName}) == Ok(r.value[1..])
    ensures r.Ok? ==> FreshNames(r.value, {})
  {
    match jre
    case NotATar(cause) => Err("Failed to read tarball entries: " + cause)
    case TarEntries(slots) =>
      var rest :- Collect(slots, s => TarStep(isMacos, unixHost, s), {JarName});
      FreshCons(JarEntry(jar), rest, {});
      assert {} + {JarName} == {JarName};
      Ok([JarEntry(jar)] + rest)
  }

  // ---------------------------------------------------------------------
  // Path rules, stated on names built from their parts

  /** Zip path: under the top directory `w`, `w/rest` lands at `jre/rest`, a
      directory exactly when the name ends in `/`, else a file with the same
      bytes and no mode; `w/` itself is dropped. */
  lemma ZipStepWrapped(w: string, rest: string, data: Result<seq<Utf8.byte>, Errors.IoError>)
    requires '/' !in w
    ensures rest == "" ==> ZipStep(Stored(w + "/" + rest, data)) == Ok(None)
    ensures rest != "" && EndsWithChar(rest, '/') ==>
      ZipStep(Stored(w + "/" + rest, data)) == Ok(Some(BundleDir(JrePrefix + rest)))
    ensures rest != "" && !EndsWithChar(rest, '/') && data.Ok? ==>
      ZipStep(Stored(w + "/" + rest, data)) == Ok(Some(BundleFile(JrePrefix + rest, data.value, None)))
    ensures rest != "" && !EndsWithChar(rest, '/') && data.Err? ==>
      ZipStep(Stored(w + "/" + rest, data)).Err?
  {
    SplitOnceAt(w, '/', rest);
    var name := w + "/" + rest;
    assert name == w + ['/'] + rest;
    if rest != "" {
      assert name[|name| - 1] == rest[|rest| - 1];
    }
  }

  /** Zip path: a name without any `/` is kept whole, under `jre/`. */
  lemma ZipStepBareName(name: string, data: Result<seq<Utf8.byte>, Errors.IoError>)
    requires '/' !in name && name != "" && data.Ok?
    ensures ZipStep(Stored(name, data)) == Ok(Some(BundleFile(JrePrefix + name, data.value, None)))
  {
    assert name[|name| - 1] in name;
  }

  /** Tar path with no `/`: `split_once` finds nothing and the whole path is
      kept, on every platform, unless it is itself the `Contents` residue. */
  lemma TarPathBareName(isMacos: bool, name: string)
    requires '/' !in name && !IsResidue(name)
    ensures TarRelPath(isMacos, name) == Some(name)
  {
  }

  /** Tar path off macOS: `w/rest` lands at `jre/rest` unless what is left is
      empty or the bare `Contents` wrapper. */
  lemma TarPathWrapped(w: string, rest: string)
    requires '/' !in w
    ensures TarRelPath(false, w + "/" + rest) == if IsResidue(rest) then None else Some(rest)
  {
    SplitOnceAt(w, '/', rest);
  }

  /** Tar path on macOS: `w/Contents/Home/x` lands at `jre/x`. */
  lemma TarPathMacosHome(w: string, x: string)
    requires '/' !in w && !IsResidue(x)
    ensures TarRelPath(true, w + "/Contents/Home/" + x) == Some(x)
  {
    var rel := "Contents/Home/" + x;
    assert w + "/Contents/Home/" + x == w + "/" + rel;
    SplitOnceAt(w, '/', rel);
    assert StripTopDir(w + "/" + rel) == rel;
    assert rel[..14] == "Contents/Home/";
    assert StripPrefix(rel, "Contents/Home/") == Some(x);
  }

  /** Tar path on macOS, the fallback strip: `w/Contents/Home` directly followed
      by anything but `/` loses the `Contents/Home` prefix, so `w/Contents/HomeX`
      lands at `jre/X`. */
  lemma TarPathMacosHomeFallback(w: string, x: string)
    requires '/' !in w && !IsResidue(x) && x[0] != '/'
    ensures TarRelPath(true, w + "/Contents/Home" + x) == Some(x)
  {
    var rel := "Contents/Home" + x;
    assert w + "/Contents/Home" + x == w + "/" + rel;
    SplitOnceAt(w, '/', rel);
    assert StripTopDir(w + "/" + rel) == rel;
    assert rel[13] == x[0];
    assert StripPrefix(rel, "Contents/Home/") == None;
    assert rel[..13] == "Contents/Home";
    assert StripPrefix(rel, "Contents/Home") == Some(x);
  }

  /** Tar path on macOS, outside `Contents/Home`: `w/x` lands at `jre/x`, as
      off macOS, so `w/Contents/Info.plist` is kept as `Contents/Info.plist`. */
  lemma TarPathMacosOther(w: string, x: string)
    requires '/' !in w && !StartsWith(x, "Contents/Home") && !IsResidue(x)
    ensures TarRelPath(true, w + "/" + x) == Some(x)
  {
    SplitOnceAt(w, '/', x);
  }

  /** Tar path on macOS: `Contents/Home` itself, with or without its slash,
      is dropped. */
  lemma TarPathMacosHomeDropped(w: string)
    requires '/' !in w
    ensures TarRelPath(true, w + "/" + "Contents/Home") == None
    ensures TarRelPath(true, w + "/" + "Contents/Home/") == None
  {
    StartsWithAppend("Contents/Home", "Contents/Home", "");
    TarPathMacosResidue(w, "Contents/Home");
    StartsWithAppend("Contents/Home/", "Contents/Home/", "");
    TarPathMacosResidue(w, "Contents/Home/");
  }

  /** Tar path on macOS: a `Contents` directly inside `Contents/Home`, the
      wrapper's residue once the prefix is stripped, is dropped. */
  lemma TarPathMacosNestedContentsDropped(w: string)
    requires '/' !in w
    ensures TarRelPath(true, w + "/" + "Contents/Home/Contents") == None
    ensures TarRelPath(true, w + "/" + "Contents/Home/Contents/") == None
  {
    StartsWithAppend("Contents/Home/Contents", "Contents/Home/", "Contents");
    TarPathMacosResidue(w, "Contents/Home/Contents");
    StartsWithAppend("Contents/Home/Contents/", "Contents/Home/", "Contents/");
    TarPathMacosResidue(w, "Contents/Home/Contents/");
  }

  lemma TarPathMacosResidue(w: string, rest: string)
    requires '/' !in w && rest != "" && IsResidue(StripMacosHome(rest))
    ensures TarRelPath(true, w + "/" + rest) == None
  {
    SplitOnceAt(w, '/', rest);
  }

  /** The `Contents` wrapper entries are dropped on every platform, not only macOS. */
  lemma TarPathDropsContents(w: string, isMacos: bool)
    requires '/' !in w
    ensures TarRelPath(isMacos, w + "/Contents") == None
    ensures TarRelPath(isMacos, w + "/Contents/") == None
  {
    assert w + "/Contents" == w + "/" + "Contents";
    assert w + "/Contents/" == w + "/" + "Contents/";
    TarPathDropsResidue(w, "Contents", isMacos);
    TarPathDropsResidue(w, "Contents/", isMacos);
  }

  lemma TarPathDropsResidue(w: string, rest: string, isMacos: bool)
    requires '/' !in w && (rest == "Contents" || rest == "Contents/")
    ensures TarRelPath(isMacos, w + "/" + rest) == None
  {
    SplitOnceAt(w, '/', rest);
    KeepsContents(rest);
  }

  /** Neither `Contents` nor `Contents/` starts with `Contents/Home`. */
  lemma KeepsContents(rest: string)
    requires rest == "Contents" || rest == "Contents/"
    ensures StripMacosHome(rest) == rest
  {
    assert StripPrefix(rest, "Contents/Home/") == None;
    assert StripPrefix(rest, "Contents/Home") == None;
  }

  /** Every entry a successful pipeline writes after the JAR lies under `jre/`. */
  lemma BundleUnderJre(jar: seq<Utf8.byte>, zip: ZipSource, tar: TarSource, isMacos: bool, unixHost: bool)
    ensures ZipBundle(jar, zip).Ok? ==>
      forall i :: 1 <= i < |ZipBundle(jar, zip).value| ==> StartsWith(ZipBundle(jar, zip).value[i].name, JrePrefix)
    ensures TarBundle(jar, tar, isMacos, unixHost).Ok? ==>
      forall i :: 1 <= i < |TarBundle(jar, tar, isMacos, unixHost).value| ==>
        StartsWith(TarBundle(jar, tar, isMacos, unixHost).value[i].name, JrePrefix)
  {
    var r := ZipBundle(jar, zip);
    if r.Ok? {
      forall i | 1 <= i < |r.value| ensures StartsWith(r.value[i].name, JrePrefix) {
        assert r.value[i] in r.value[1..];
        CollectOnlyEmits(zip.slots, ZipStep, {JarName}, r.value[i]);
      }
    }
    var t := TarBundle(jar, tar, isMacos, unixHost);
    if t.Ok? {
      var step := s => TarStep(isMacos, unixHost, s);
      forall i | 1 <= i < |t.value| ensures StartsWith(t.value[i].name, JrePrefix) {
        assert t.value[i] in t.value[1..];
        CollectOnlyEmits(tar.slots, step, {JarName}, t.value[i]);
      }
    }
  }

  // ---------------------------------------------------------------------
  // The build script's `main`

  /** The build machine: target platform, manifest directory, and whether the
      build runs on Unix (where tar modes are passed on). */
  datatype BuildHost = BuildHost(os: string, arch: string, manifestDir: Path, unixHost: bool)

  /** What the zip reader and the gzip-and-tar reader make of the JRE download. */
  datatype JreDownload = JreDownload(asZip: ZipSource, asTar: TarSource)

  /** The two downloads, or the panic each would raise (transport error, non-2xx status). */
  datatype Downloads = Downloads(jar: Result<seq<Utf8.byte>, string>, jre: Result<JreDownload, string>)

  datatype BuildOutcome = Panicked(message: string) | AlreadyBuilt | Built(bundle: seq<BundleEntry>)

  /** The filesystem afterwards, the URLs fetched in order, and how it ended. */
  datatype BuildRun = BuildRun(fs: FileSystem, fetched: seq<string>, outcome: BuildOutcome)

  function BinariesDir(manifestDir: Path): Path {
    Join(manifestDir, "binaries")
  }

  function BundleZipPath(manifestDir: Path): Path {
    Join(BinariesDir(manifestDir), "plantuml-bundle.zip")
  }

  /** The bundle file sits directly inside the binaries directory. */
  lemma BundleKeyShape(manifestDir: Path)
    ensures KeyOf(BundleZipPath(manifestDir)) == KeyOf(BinariesDir(manifestDir)) + ["plantuml-bundle.zip"]
  {
    KeyOfJoinName(BinariesDir(manifestDir), "plantuml-bundle.zip");
  }

  /** The entries the platform's pipeline writes: the tarball pipeline for
      the targets whose JRE is a tarball, the zip pipeline otherwise. */
  function Repackage(p: Platform, jar: seq<Utf8.byte>, jre: JreDownload, unixHost: bool): (r: Result<seq<BundleEntry>, string>)
    ensures p.isTarball ==> r == TarBundle(jar, jre.asTar, p.isMacos, unixHost)
    ensures !p.isTarball ==> r == ZipBundle(jar, jre.asZip)
    ensures r.Ok? ==> |r.value| >= 1 && r.value[0] == JarEntry(jar) && FreshNames(r.value, {})
  {
    if p.isTarball then TarBundle(jar, jre.asTar, p.isMacos, unixHost) else ZipBundle(jar, jre.asZip)
  }

  const BundleName := "plantuml-bundle.zip"

  /** The panic when the very first write, the JAR's entry, finds no room. */
  const NoRoomPanic := "Failed to add JAR to bundle: " + ErrNoSpace.text

  /** build.rs `main` as written, once the platform is known: create the
      binaries directory, stop if the bundle is already there, fetch both
      downloads, create the bundle file, and only then repackage. The file is
      created before the JRE is read, so a panic while repackaging leaves an
      empty bundle behind. The JAR's entry is the first thing written, so on
      a volume with no room left the build stops there, before the JRE is
      read. `encode` is the zip encoder: the bytes the writer produces for a
      sequence of entries. */
  function BuildFor(p: Platform, unixHost: bool, binKey: Key, fs: FileSystem, downloads: Downloads,
                    encode: seq<BundleEntry> -> seq<Utf8.byte>): (r: BuildRun)
    ensures Valid(fs) && Exists(fs, binKey + [BundleName]) ==> r == BuildRun(fs, [], AlreadyBuilt)
    ensures r.outcome.Built? ==>
      && r.fetched == [PlantumlJarUrl, JreUrl(p.target)]
      && downloads.jar.Ok? && downloads.jre.Ok?
      && Repackage(p, downloads.jar.value, downloads.jre.value, unixHost) == Ok(r.outcome.bundle)
      && IsFile(r.fs, binKey + [BundleName])
      && r.fs.nodes[binKey + [BundleName]].bytes == encode(r.outcome.bundle)
    ensures r.outcome.AlreadyBuilt? ==> r.fetched == [] && Exists(r.fs, binKey + [BundleName])
    ensures Valid(fs) ==> Valid(r.fs)
  {
    var key := binKey + [BundleName];
    assert Parent(key) == binKey;
    ParentIsDir(fs, key);
    var (fs1, mkErr) := CreateDirAll(fs, binKey);
    if mkErr.Some? then BuildRun(fs1, [], Panicked("Failed to create binaries directory: " + mkErr.value.text))
    else if Exists(fs1, key) then BuildRun(fs1, [], AlreadyBuilt)
    else
      match downloads.jar
      case Err(msg) => BuildRun(fs1, [PlantumlJarUrl], Panicked(msg))
      case Ok(jar) =>
        match downloads.jre
        case Err(msg) => BuildRun(fs1, [PlantumlJarUrl, JreUrl(p.target)], Panicked(msg))
        case Ok(jre) =>
          var fetched := [PlantumlJarUrl, JreUrl(p.target)];
          var (fs2, createErr) := CreateFile(fs1, key);
          if createErr.Some? then BuildRun(fs2, fetched, Panicked("Failed to create bundle ZIP: " + createErr.value.text))
          else if key in fs2.full then BuildRun(fs2, fetched, Panicked(NoRoomPanic))
          else
            match Repackage(p, jar, jre, unixHost)
            case Err(msg) => BuildRun(fs2, fetched, Panicked(msg))
            case Ok(entries) => BuildRun(WriteAll(fs2, key, encode(entries)).0, fetched, Built(entries))
  }

  /** build.rs `main` as written. */
  function BuildMain(host: BuildHost, fs: FileSystem, downloads: Downloads, encode: seq<BundleEntry> -> seq<Utf8.byte>): (r: BuildRun)
    ensures (host.os, host.arch) !in SupportedTargets ==>
      && r.outcome.Panicked? && r.fs == fs && r.fetched == []
      && StartsWith(r.outcome.message, "Unsupported platform: " + host.os + "-" + host.arch + ".")
    ensures (host.os, host.arch) in SupportedTargets && Valid(fs) && Exists(fs, KeyOf(BundleZipPath(host.manifestDir))) ==>
      r == BuildRun(fs, [], AlreadyBuilt)
    ensures r.outcome.Built? ==>
      && (host.os, host.arch) in SupportedTargets
      && var p := SelectPlatform(host.os, host.arch).value;
      && r.fetched == [PlantumlJarUrl, JreUrl(p.target)]
      && downloads.jar.Ok? && downloads.jre.Ok?
      && Repackage(p, downloads.jar.value, downloads.jre.value, host.unixHost) == Ok(r.outcome.bundle)
      && IsFile(r.fs, KeyOf(BundleZipPath(host.manifestDir)))
      && r.fs.nodes[KeyOf(BundleZipPath(host.manifestDir))].bytes == encode(r.outcome.bundle)
    ensures Valid(fs) ==> Valid(r.fs)
  {
    BundleKeyShape(host.manifestDir);
    match SelectPlatform(host.os, host.arch)
    case Err(msg) => BuildRun(fs, [], Panicked(msg))
    case Ok(p) => BuildFor(p, host.unixHost, KeyOf(BinariesDir(host.manifestDir)), fs, downloads, encode)
  }

  /** With the binaries directory creatable, no bundle yet, both downloads
      good, a JRE archive that repackages, and room to write the bundle file,
      the build finishes with the repackaged entries. */
  lemma BuildSucceeds(p: Platform, unixHost: bool, binKey: Key, fs: FileSystem, downloads: Downloads,
                      encode: seq<BundleEntry> -> seq<Utf8.byte>)
    requires Valid(fs) && !Exists(fs, binKey + [BundleName])
    requires forall j :: 0 < j <= |binKey| ==> !IsFile(fs, binKey[..j]) && (binKey[..j] !in fs.nodes ==> binKey[..j] !in fs.denied)
    requires downloads.jar.Ok? && downloads.jre.Ok?
    requires Repackage(p, downloads.jar.value, downloads.jre.value, unixHost).Ok?
    requires binKey + [BundleName] !in fs.denied && binKey + [BundleName] !in fs.full
    ensures BuildFor(p, unixHost, binKey, fs, downloads, encode).outcome ==
      Built(Repackage(p, downloads.jar.value, downloads.jre.value, unixHost).value)
  {
    var key := binKey + [BundleName];
    CreateDirAllSucceedsIff(fs, binKey);
    var fs1 := CreateDirAll(fs, binKey).0;
    assert IsDir(fs1, binKey[..|binKey|]);
    assert binKey[..|binKey|] == binKey == Parent(key);
    assert !IsPrefix(key, binKey);
    assert CanCreate(fs1, key);
  }

  /** The corrected build: repackage in full first, write the archive under
      a temporary name beside the bundle, and only then rename it into place,
      so no failure leaves a file at the bundle's name for the existence
      check to mistake for a finished bundle. */
  function BuildForAtomic(p: Platform, unixHost: bool, binKey: Key, fs: FileSystem, downloads: Downloads,
                          encode: seq<BundleEntry> -> seq<Utf8.byte>): (r: BuildRun)
    ensures Valid(fs) && Exists(fs, binKey + [BundleName]) ==> r == BuildRun(fs, [], AlreadyBuilt)
    ensures r.outcome.Built? ==>
      && r.fetched == [PlantumlJarUrl, JreUrl(p.target)]
      && downloads.jar.Ok? && downloads.jre.Ok?
      && Repackage(p, downloads.jar.value, downloads.jre.value, unixHost) == Ok(r.outcome.bundle)
      && IsFile(r.fs, binKey + [BundleName])
      && r.fs.nodes[binKey + [BundleName]].bytes == encode(r.outcome.bundle)
    ensures r.outcome.Panicked? ==> (Exists(r.fs, binKey + [BundleName]) <==> Exists(fs, binKey + [BundleName]))
    ensures Valid(fs) ==> Valid(r.fs)
  {
    var key := binKey + [BundleName];
    var part := binKey + [PartName];
    assert Parent(key) == binKey;
    ParentIsDir(fs, key);
    var (fs1, mkErr) := CreateDirAll(fs, binKey);
    assert !IsPrefix(key, binKey);
    if mkErr.Some? then BuildRun(fs1, [], Panicked("Failed to create binaries directory: " + mkErr.value.text))
    else if Exists(fs1, key) then BuildRun(fs1, [], AlreadyBuilt)
    else
      match downloads.jar
      case Err(msg) => BuildRun(fs1, [PlantumlJarUrl], Panicked(msg))
      case Ok(jar) =>
        match downloads.jre
        case Err(msg) => BuildRun(fs1, [PlantumlJarUrl, JreUrl(p.target)], Panicked(msg))
        case Ok(jre) =>
          var fetched := [PlantumlJarUrl, JreUrl(p.target)];
          match Repackage(p, jar, jre, unixHost)
          case Err(msg) => BuildRun(fs1, fetched, Panicked(msg))
          case Ok(entries) =>
            assert part != key;
            var (fs2, err) := PlaceBundle(fs1, part, key, encode(entries));
            if err.Some? then BuildRun(fs2, fetched, Panicked(err.value))
            else BuildRun(fs2, fetched, Built(entries))
  }

  /** The corrected build's last step: write the archive under the temporary
      name, then rename it over the bundle's name. Only a finished rename puts
      anything at the bundle's name. */
  function PlaceBundle(fs: FileSystem, part: Key, key: Key, bytes: seq<Utf8.byte>): (r: (FileSystem, Option<string>))
    requires part != key
    ensures r.1.Some? ==> (Exists(r.0, key) <==> Exists(fs, key))
    ensures r.1.None? ==> IsFile(r.0, key) && r.0.nodes[key].bytes == bytes
    ensures Valid(fs) ==> Valid(r.0)
  {
    var (fs1, writeErr) := WriteFile(fs, part, bytes);
    if writeErr.Some? then (fs1, Some("Failed to write bundle ZIP: " + writeErr.value.text))
    else
      var (fs2, moveErr) := RenameFile(fs1, part, key);
      if moveErr.Some? then (fs2, Some("Failed to move bundle ZIP into place: " + moveErr.value.text))
      else (fs2, None)
  }

  /** The name the corrected build writes the archive under before the rename. */
  const PartName := "plantuml-bundle.zip.part"

  function BuildMainAtomic(host: BuildHost, fs: FileSystem, downloads: Downloads, encode: seq<BundleEntry> -> seq<Utf8.byte>): (r: BuildRun)
    ensures (host.os, host.arch) !in SupportedTargets ==> r.outcome.Panicked? && r.fs == fs && r.fetched == []
    ensures (host.os, host.arch) in SupportedTargets && Valid(fs) && Exists(fs, KeyOf(BundleZipPath(host.manifestDir))) ==>
      r == BuildRun(fs, [], AlreadyBuilt)
    ensures r.outcome.Built? ==>
      && (host.os, host.arch) in SupportedTargets
      && downloads.jar.Ok? && downloads.jre.Ok?
      && Repackage(SelectPlatform(host.os, host.arch).value, downloads.jar.value, downloads.jre.value, host.unixHost) == Ok(r.outcome.bundle)
      && IsFile(r.fs, KeyOf(BundleZipPath(host.manifestDir)))
      && r.fs.nodes[KeyOf(BundleZipPath(host.manifestDir))].bytes == encode(r.outcome.bundle)
    ensures r.outcome.Panicked? ==>
      (Exists(r.fs, KeyOf(BundleZipPath(host.manifestDir))) <==> Exists(fs, KeyOf(BundleZipPath(host.manifestDir))))
    ensures Valid(fs) ==> Valid(r.fs)
  {
    BundleKeyShape(host.manifestDir);
    match SelectPlatform(host.os, host.arch)
    case Err(msg) => BuildRun(fs, [], Panicked(msg))
    case Ok(p) => BuildForAtomic(p, host.unixHost, KeyOf(BinariesDir(host.manifestDir)), fs, downloads, encode)
  }

  /** The defect as written: when repackaging panics after the bundle file has
      been created in an existing binaries directory, or the volume has no
      room for the JAR's entry, the empty file stays, and every later build on
      that tree takes the early return and embeds it, whatever it downloads. */
  lemma PartialBundleIsReused(p: Platform, unixHost: bool, binKey: Key, fs: FileSystem, downloads: Downloads,
                              encode: seq<BundleEntry> -> seq<Utf8.byte>, later: Downloads)
    requires Valid(fs) && IsDir(fs, binKey) && !Exists(fs, binKey + [BundleName])
    requires downloads.jar.Ok? && downloads.jre.Ok?
    requires Repackage(p, downloads.jar.value, downloads.jre.value, unixHost).Err? || binKey + [BundleName] in fs.full
    requires binKey + [BundleName] !in fs.denied
    ensures BuildFor(p, unixHost, binKey, fs, downloads, encode).outcome.Panicked?
    ensures var fs1 := BuildFor(p, unixHost, binKey, fs, downloads, encode).fs;
      && IsFile(fs1, binKey + [BundleName]) && fs1.nodes[binKey + [BundleName]].bytes == []
      && BuildFor(p, unixHost, binKey, fs1, later, encode) == BuildRun(fs1, [], AlreadyBuilt)
  {
    var key := binKey + [BundleName];
    assert binKey == Parent(key);
    assert !IsDir(fs, key);
    var fs1 := BuildFor(p, unixHost, binKey, fs, downloads, encode).fs;
    assert Valid(fs1) && key in fs1.nodes;
  }

  /** A concrete instance: with an empty `binaries` directory on Linux, a
      download that is not a gzipped tarball makes the first build panic, and
      the second build, given good downloads, reports the empty file as an
      existing bundle. */
  lemma PartialBundleWitness(good: Downloads, encode: seq<BundleEntry> -> seq<Utf8.byte>)
    ensures var p := Platform(LinuxX64, true, false);
      var binKey := ["binaries"];
      var fs := FileSystem(map[["binaries"] := Dir], {}, {});
      var bad := Downloads(Ok([]), Ok(JreDownload(NotAZip("bad"), TarEntries([BadEntry("invalid gzip header")]))));
      var first := BuildFor(p, true, binKey, fs, bad, encode);
      && first.outcome.Panicked?
      && BuildFor(p, true, binKey, first.fs, good, encode).outcome.AlreadyBuilt?
  {
    var p := Platform(LinuxX64, true, false);
    var binKey := ["binaries"];
    var fs := FileSystem(map[["binaries"] := Dir], {}, {});
    var bad := Downloads(Ok([]), Ok(JreDownload(NotAZip("bad"), TarEntries([BadEntry("invalid gzip header")]))));
    forall x | Present(fs, x) ensures |x| > 0 && IsDir(fs, x[..|x| - 1]) {
      assert x == binKey;
    }
    var slots := bad.jre.value.asTar.slots;
    assert TarStep(false, true, slots[0]).Err?;
    assert Collect(slots, s => TarStep(false, true, s), {JarName}).Err?;
    assert Repackage(p, [], bad.jre.value, true).Err?;
    PartialBundleIsReused(p, true, binKey, fs, bad, encode, good);
  }

  /** The corrected build never leaves a bundle behind when it fails, so the
      next build on that tree starts over rather than reusing it. */
  lemma FailedAtomicBuildIsRetried(p: Platform, unixHost: bool, binKey: Key, fs: FileSystem, downloads: Downloads,
                                   encode: seq<BundleEntry> -> seq<Utf8.byte>, later: Downloads)
    requires !Exists(fs, binKey + [BundleName])
    requires BuildForAtomic(p, unixHost, binKey, fs, downloads, encode).outcome.Panicked?
    ensures var fs1 := BuildForAtomic(p, unixHost, binKey, fs, downloads, encode).fs;
      !BuildForAtomic(p, unixHost, binKey, fs1, later, encode).outcome.AlreadyBuilt?
  {
    var fs1 := BuildForAtomic(p, unixHost, binKey, fs, downloads, encode).fs;
    var key := binKey + [BundleName];
    assert !Exists(fs1, key);
    var fs2 := CreateDirAll(fs1, binKey).0;
    assert !IsPrefix(key, binKey);
    assert !Exists(fs2, key);
  }

  /** The archive format each target's JRE URL names is the one its pipeline
      reads: a tarball exactly when the URL ends in `.tar.gz`. */
  lemma JreUrlMatchesPipeline(os: string, arch: string)
    requires SelectPlatform(os, arch).Ok?
    ensures var p := SelectPlatform(os, arch).value;
      p.isTarball <==> EndsWith(JreUrl(p.target), ".tar.gz")
  {
    var p := SelectPlatform(os, arch).value;
    var u := JreUrl(p.target);
    if p.target == WindowsX64 {
      assert u[|u| - 1] == 'p';
    }
  }
}

=== FILE: cli.dfy ===
/** The `plantuml` command-line passthrough (src/bin/plantuml.rs): resolve
    the bundle, run Java on the JAR with the user's arguments, and hand back
    the child's exit code. The child is an input: a function from the command
    line to how `Command::status` ends. */
module Cli {
  import opened Wrappers
  import opened Text
  import opened Paths
  import opened Errors
  import opened Binary
  import opened Executor
  import Utf8

  /** `Command::status`: the child could not be run, or it ended with a status. */
  datatype StatusRun = StatusFailed(cause: IoError) | Exited(status: ExitStatus)

  /** What one run of the binary did: the process state afterwards, the
      command it started if any, what it printed on standard error and the
      code it exited with. */
  datatype CliRun = CliRun(proc: Process, spawned: Option<Command>, stderr: string, exit: Utf8.byte)

  const ExtractErrorHeader := "Error extracting PlantUML bundle: "
  const RunErrorHeader := "Error running PlantUML: "

  /** `code as u8`: the low eight bits of the two's-complement exit code. */
  function ExitByte(code: int32): (r: Utf8.byte)
    ensures (code - r) % 256 == 0
    ensures 0 <= code < 256 ==> r == code
  {
    code % 256
  }

  /** Negative codes wrap, and codes above 255 lose their high bits. */
  lemma ExitByteWraps()
    ensures ExitByte(-1) == 255 && ExitByte(-256) == 0 && ExitByte(256) == 0 && ExitByte(257) == 1
  {
  }

  /** The arguments after the program name (`env::args().skip(1)`). */
  function UserArgs(argv: seq<string>): (r: seq<string>)
    ensures |argv| > 0 ==> argv == argv[..1] + r
    ensures |argv| == 0 ==> r == []
  {
    if |argv| == 0 then [] else argv[1..]
  }

  /** `main`. `argv` is the process's argument list, program name first. */
  function CliMain(env: Env, proc: Process, argv: seq<string>, run: Command -> StatusRun): (r: CliRun)
    ensures var (proc1, paths) := GetBundlePaths(env, proc);
      && r.proc == proc1
      && (paths.Err? <==> r.spawned.None?)
      && (paths.Err? ==> r.exit == 1 && r.stderr == ExtractErrorHeader + Message(paths.error) + "\n")
      && (paths.Ok? ==> r.spawned == Some(Command(paths.value.javaExe, ["-jar", paths.value.plantumlJar] + UserArgs(argv))))
    ensures r.spawned.Some? && run(r.spawned.value).Exited? ==>
      var status := run(r.spawned.value).status;
      && r.stderr == ""
      && r.exit == (if status.code.Some? then ExitByte(status.code.value) else 1)
    ensures r.spawned.Some? && run(r.spawned.value).StatusFailed? ==>
      r.exit == 1 && r.stderr == RunErrorHeader + run(r.spawned.value).cause.text + "\n"
  {
    var (proc1, paths) := GetBundlePaths(env, proc);
    match paths
    case Err(e) => CliRun(proc1, None, ExtractErrorHeader + Message(e) + "\n", 1)
    case Ok(p) =>
      var cmd := Command(p.javaExe, ["-jar", p.plantumlJar] + UserArgs(argv));
      match run(cmd)
      case Exited(status) =>
        CliRun(proc1, Some(cmd), "", if status.code.Some? then ExitByte(status.code.value) else 1)
      case StatusFailed(e) => CliRun(proc1, Some(cmd), RunErrorHeader + e.text + "\n", 1)
  }

  /** The binary reports success exactly when the child exited with a code
      that is a multiple of 256, 0 included. */
  lemma CliSucceedsIff(env: Env, proc: Process, argv: seq<string>, run: Command -> StatusRun)
    ensures var r := CliMain(env, proc, argv, run);
      r.exit == 0 <==>
        r.spawned.Some? && run(r.spawned.value).Exited? &&
        run(r.spawned.value).status.code.Some? && run(r.spawned.value).status.code.value % 256 == 0
  {
  }

  /** A failed resolution never runs anything and always exits with 1, and the
      message it prints carries the extraction cause. */
  lemma ExtractionFailureReported(env: Env, proc: Process, argv: seq<string>, run: Command -> StatusRun)
    requires GetBundlePaths(env, proc).1.Err?
    ensures var r := CliMain(env, proc, argv, run);
      && r.spawned.None? && r.exit == 1
      && StartsWith(r.stderr, ExtractErrorHeader + ExtractionHeader)
  {
    var e := GetBundlePaths(env, proc).1.error;
    var r := CliMain(env, proc, argv, run);
    Headed(ExtractErrorHeader, ExtractionHeader, e.cause.text, Message(e), r.stderr);
  }

  lemma Headed(outer: string, inner: string, cause: string, message: string, line: string)
    requires message == inner + cause && line == outer + message + "\n"
    ensures StartsWith(line, outer + inner)
  {
    StartsWithAppend(line, outer + inner, cause + "\n");
  }
}

=== FILE: decimal.dfy ===
/** Rust's `Display` for integers: base-10 digits, a leading `-` for negatives. */
module Decimal {

  predicate IsDigit(c: char) {
    '0' <= c <= '9'
  }

  function DigitChar(d: nat): (c: char)
    requires d < 10
    ensures IsDigit(c)
  {
    "0123456789"[d]
  }

  function DigitValue(c: char): nat
    requires IsDigit(c)
  {
    (c as int) - ('0' as int)
  }

  /** The shortest base-10 spelling of `n`. */
  function NatToDecimal(n: nat): (r: string)
    ensures |r| >= 1
    ensures forall i :: 0 <= i < |r| ==> IsDigit(r[i])
    ensures r[0] == '0' ==> n == 0
  {
    if n < 10 then [DigitChar(n)] else NatToDecimal(n / 10) + [DigitChar(n % 10)]
  }

  /** Reads a digit string back (most significant digit first). */
  function ParseDigits(s: string): nat
    requires forall i :: 0 <= i < |s| ==> IsDigit(s[i])
  {
    if |s| == 0 then 0 else 10 * ParseDigits(s[..|s| - 1]) + DigitValue(s[|s| - 1])
  }

  lemma {:induction false} ParseNatToDecimal(n: nat)
    ensures ParseDigits(NatToDecimal(n)) == n
  {
    var r := NatToDecimal(n);
    if n < 10 {
      assert DigitValue(DigitChar(n)) == n;
    } else {
      ParseNatToDecimal(n / 10);
      assert r[..|r| - 1] == NatToDecimal(n / 10);
      assert DigitValue(DigitChar(n % 10)) == n % 10;
    }
  }

  /** `i32`'s (and every integer's) `Display`. */
  function IntToDecimal(i: int): (r: string)
    ensures |r| >= 1
    ensures forall k :: 0 <= k < |r| ==> IsDigit(r[k]) || r[k] == '-'
    ensures r[0] == '-' <==> i < 0
  {
    if i < 0 then "-" + NatToDecimal(-i) else NatToDecimal(i)
  }

  /** Inverse of `IntToDecimal` on its image. */
  function ParseInt(s: string): int
    requires forall k :: 0 <= k < |s| ==> IsDigit(s[k]) || s[k] == '-'
  {
    if |s| > 0 && s[0] == '-' && (forall k :: 1 <= k < |s| ==> IsDigit(s[k]))
    then -(ParseDigits(s[1..]) as int)
    else if forall k :: 0 <= k < |s| ==> IsDigit(s[k]) then ParseDigits(s)
    else 0
  }

  /** Printing an integer loses nothing: it parses back to itself. */
  lemma {:induction false} ParseIntToDecimal(i: int)
    ensures ParseInt(IntToDecimal(i)) == i
  {
    if i < 0 {
      var d := NatToDecimal(-i);
      var s := "-" + d;
      assert IntToDecimal(i) == s;
      assert s[1..] == d;
      assert forall k :: 1 <= k < |s| ==> IsDigit(s[k]) by {
        forall k | 1 <= k < |s| ensures IsDigit(s[k]) {
          assert s[k] == d[k - 1];
        }
      }
      ParseNatToDecimal(-i);
      assert ParseInt(s) == -(ParseDigits(d) as int);
    } else {
      var d := NatToDecimal(i);
      assert IntToDecimal(i) == d;
      assert d[0] != '-';
      ParseNatToDecimal(i);
      assert ParseInt(d) == ParseDigits(d);
    }
  }

  /** Distinct integers print differently. */
  lemma IntToDecimalInjective(a: int, b: int)
    requires IntToDecimal(a) == IntToDecimal(b)
    ensures a == b
  {
    ParseIntToDecimal(a);
    ParseIntToDecimal(b);
  }
}

=== FILE: errors.dfy ===
/** `PlantUmlError` (src/error.rs) and the text each variant displays. */
module Errors {
  import opened Wrappers
  import opened Text
  import opened Paths
  import Utf8
  import Decimal

  type int32 = x: int | -0x8000_0000 <= x < 0x8000_0000

  /** The part of `std::io::ErrorKind` the model produces. */
  datatype IoErrorKind =
    | NotFound
    | PermissionDenied
    | AlreadyExists
    | NotADirectory
    | IsADirectory
    | InvalidData
    | StorageFull

  /** A `std::io::Error`: its kind and the text its `Display` prints. */
  datatype IoError = IoError(kind: IoErrorKind, text: string)

  datatype PlantUmlError =
    | BinaryExtraction(cause: IoError)
    | ProcessFailed(code: int32, stderr: string)
    | ProcessSignaled
    | ProcessSpawn(cause: IoError)
    | StdinWrite(cause: IoError)
    | InputRead(path: Path, source: IoError)
    | OutputWrite(path: Path, source: IoError)
    | InvalidUtf8(bytes: seq<Utf8.byte>, utf8: Utf8.Utf8Error)
    | SyntaxError(text: string)

  const ExtractionHeader := "failed to extract plantuml binary: "
  const ProcessFailedHeader := "plantuml process failed with exit code "
  const SignaledText := "plantuml process terminated by signal"
  const SpawnHeader := "failed to spawn plantuml process: "
  const StdinHeader := "failed to write to plantuml stdin: "
  const InvalidUtf8Header := "invalid UTF-8 in plantuml output: "
  const SyntaxHeader := "plantuml syntax error: "

  /** The `Display` text of an error. */
  function Message(e: PlantUmlError): (r: string)
    ensures e.BinaryExtraction? ==> StripPrefix(r, ExtractionHeader) == Some(e.cause.text)
    ensures e.ProcessSignaled? ==> r == SignaledText
    ensures e.ProcessSpawn? ==> StripPrefix(r, SpawnHeader) == Some(e.cause.text)
    ensures e.StdinWrite? ==> StripPrefix(r, StdinHeader) == Some(e.cause.text)
    ensures e.InvalidUtf8? ==> StripPrefix(r, InvalidUtf8Header) == Some(Utf8.ErrorText(e.utf8))
    ensures e.SyntaxError? ==> StripPrefix(r, SyntaxHeader) == Some(e.text)
  {
    match e
    case BinaryExtraction(cause) => ExtractionHeader + cause.text
    case ProcessFailed(code, stderr) =>
      ProcessFailedHeader + Decimal.IntToDecimal(code) + ": " + stderr
    case ProcessSignaled => SignaledText
    case ProcessSpawn(cause) => SpawnHeader + cause.text
    case StdinWrite(cause) => StdinHeader + cause.text
    case InputRead(path, source) => "failed to read input file '" + path + "': " + source.text
    case OutputWrite(path, source) => "failed to write output file '" + path + "': " + source.text
    case InvalidUtf8(_, utf8) => InvalidUtf8Header + Utf8.ErrorText(utf8)
    case SyntaxError(text) => SyntaxHeader + text
  }

  /** The file errors name the path they are about, quoted. */
  lemma FileErrorsNamePath(e: PlantUmlError)
    requires e.InputRead? || e.OutputWrite?
    ensures Contains(Message(e), "'" + e.path + "'")
  {
    var src := if e.InputRead? then e.source else e.source;
    var head := if e.InputRead? then "failed to read input file " else "failed to write output file ";
    assert Message(e) == head + ("'" + e.path + "'") + (": " + src.text);
    ContainsInfix(head, "'" + e.path + "'", ": " + src.text);
  }

  /** The message of a process failure determines both the exit code and the
      captured standard error: neither is lost or confused with the other. */
  lemma ProcessFailedMessageInjective(c1: int32, s1: string, c2: int32, s2: string)
    requires Message(ProcessFailed(c1, s1)) == Message(ProcessFailed(c2, s2))
    ensures c1 == c2 && s1 == s2
  {
    var d1, d2 := Decimal.IntToDecimal(c1), Decimal.IntToDecimal(c2);
    assert Message(ProcessFailed(c1, s1)) == ProcessFailedHeader + (d1 + ": " + s1);
    assert Message(ProcessFailed(c2, s2)) == ProcessFailedHeader + (d2 + ": " + s2);
    DropHeader(ProcessFailedHeader, d1 + ": " + s1, d2 + ": " + s2);
    CodeThenText(d1, s1, d2, s2);
    Decimal.IntToDecimalInjective(c1, c2);
  }

  lemma DropHeader(h: string, a: string, b: string)
    requires h + a == h + b
    ensures a == b
  {
    assert a == (h + a)[|h|..];
  }

  /** A colon-free code followed by `": "` and a text splits back uniquely. */
  lemma CodeThenText(d1: string, s1: string, d2: string, s2: string)
    requires ':' !in d1 && ':' !in d2
    requires d1 + ": " + s1 == d2 + ": " + s2
    ensures d1 == d2 && s1 == s2
  {
    assert d1 + ": " + s1 == d1 + [':'] + (" " + s1);
    assert d2 + ": " + s2 == d2 + [':'] + (" " + s2);
    SplitOnceAt(d1, ':', " " + s1);
    SplitOnceAt(d2, ':', " " + s2);
    assert s1 == (" " + s1)[1..] && s2 == (" " + s2)[1..];
  }
}

=== FILE: executor.dfy ===
/** Running the bundled PlantUML in pipe mode (src/executor.rs). The child
    process is an input: a function from the command line and the bytes fed to
    its standard input to what happened. */
module Executor {
  import opened Wrappers
  import opened Text
  import opened Paths
  import opened Errors
  import opened Binary
  import Utf8

  /** A command line: the program and its arguments. */
  datatype Command = Command(program: Path, args: seq<string>)

  /** `ExitStatus`: the exit code, absent when a signal ended the process. */
  datatype ExitStatus = ExitStatus(code: Option<int32>)

  /** `ExitStatus::success`. */
  predicate Success(s: ExitStatus) {
    s.code == Some(0)
  }

  /** How a child run in pipe mode ends: it could not be started, its
      standard input could not be written, waiting for it failed, or it
      finished with a status and its two output streams. */
  datatype ChildRun =
    | SpawnFailed(cause: IoError)
    | StdinFailed(cause: IoError)
    | WaitFailed(cause: IoError)
    | Finished(status: ExitStatus, stdout: seq<Utf8.byte>, stderr: seq<Utf8.byte>)

  type Child = (Command, seq<Utf8.byte>) -> ChildRun

  /** The arguments that render standard input to SVG on standard output. */
  function PipeArgs(jar: Path): (r: seq<string>)
    ensures |r| == 6 && r[1] == jar
    ensures r[..1] == ["-jar"] && r[2..] == ["-pipe", "-tsvg", "-charset", "UTF-8"]
  {
    ["-jar", jar, "-pipe", "-tsvg", "-charset", "UTF-8"]
  }

  /** The two markers that make a failure a syntax error. */
  const SyntaxMarker := "Syntax Error"
  const StartMarker := "@startuml"

  /** What a finished child's status and streams mean. */
  function Classify(status: ExitStatus, stdout: seq<Utf8.byte>, stderr: seq<Utf8.byte>): (r: Result<string, PlantUmlError>)
    ensures r.Ok? <==> Success(status) && Utf8.Decode(stdout).Ok?
    ensures r.Ok? ==> Utf8.Encode(r.value) == stdout
    ensures Success(status) && r.Err? ==> r.error == InvalidUtf8(stdout, Utf8.Decode(stdout).error)
    ensures !Success(status) ==>
      && r.Err?
      && (r.error.SyntaxError? <==> Contains(Utf8.DecodeLossy(stderr), SyntaxMarker) || Contains(Utf8.DecodeLossy(stderr), StartMarker))
    ensures !Success(status) && r.error.SyntaxError? ==> r.error.text == Utf8.DecodeLossy(stderr)
    ensures !Success(status) && !r.error.SyntaxError? ==>
      r.error == ProcessFailed(status.code.GetOr(-1), Utf8.DecodeLossy(stderr))
    ensures r.Err? ==> !r.error.ProcessSignaled?
  {
    if !Success(status) then
      var text := Utf8.DecodeLossy(stderr);
      if Contains(text, SyntaxMarker) || Contains(text, StartMarker) then Err(SyntaxError(text))
      else Err(ProcessFailed(status.code.GetOr(-1), text))
    else
      match Utf8.Decode(stdout)
      case Ok(svg) =>
        Utf8.EncodeDecode(stdout);
        Ok(svg)
      case Err(e) => Err(InvalidUtf8(stdout, e))
  }

  /** On success the standard error stream plays no part. */
  lemma SuccessIgnoresStderr(status: ExitStatus, stdout: seq<Utf8.byte>, e1: seq<Utf8.byte>, e2: seq<Utf8.byte>)
    requires Success(status)
    ensures Classify(status, stdout, e1) == Classify(status, stdout, e2)
  {
  }

  /** Text PlantUML writes out comes back as the same text. */
  lemma SvgRoundTrip(svg: string, stderr: seq<Utf8.byte>)
    ensures Classify(ExitStatus(Some(0)), Utf8.Encode(svg), stderr) == Ok(svg)
  {
    Utf8.DecodeEncode(svg);
  }

  /** A failure whose standard error is valid UTF-8 reports that text itself. */
  lemma FailureKeepsStderrText(status: ExitStatus, stdout: seq<Utf8.byte>, stderr: string)
    requires !Success(status)
    ensures var r := Classify(status, stdout, Utf8.Encode(stderr));
      (r.error.SyntaxError? && r.error.text == stderr) || (r.error.ProcessFailed? && r.error.stderr == stderr)
  {
    Utf8.DecodeEncode(stderr);
    Utf8.LossyAgreesOnValid(Utf8.Encode(stderr));
  }

  /** The outcome of one call: the process state afterwards, the command
      started (with the bytes given to it) if it got that far, and the result. */
  datatype Exec<T> = Exec(proc: Process, spawned: Option<(Command, seq<Utf8.byte>)>, result: Result<T, PlantUmlError>)

  /** The command and input for rendering `input` with the resolved paths. */
  function PipeCall(paths: BundlePaths, input: string): (r: (Command, seq<Utf8.byte>))
    ensures r.0.program == paths.javaExe && r.0.args == PipeArgs(paths.plantumlJar)
    ensures Utf8.Decode(r.1) == Ok(input)
  {
    Utf8.DecodeEncode(input);
    (Command(paths.javaExe, PipeArgs(paths.plantumlJar)), Utf8.Encode(input))
  }

  /** `execute_pipe`: resolve the bundle, run Java on the JAR in pipe mode
      with `input` on standard input, and classify what comes back. */
  function ExecutePipe(env: Env, proc: Process, input: string, child: Child): (r: Exec<string>)
    ensures var (proc1, paths) := GetBundlePaths(env, proc);
      && r.proc == proc1
      && (paths.Err? <==> r.spawned.None?)
      && (paths.Err? ==> r.result == Err(paths.error))
      && (paths.Ok? ==> r.spawned == Some(PipeCall(paths.value, input)))
    ensures r.spawned.Some? ==> match child(r.spawned.value.0, r.spawned.value.1)
      case SpawnFailed(e) => r.result == Err(ProcessSpawn(e))
      case StdinFailed(e) => r.result == Err(StdinWrite(e))
      case WaitFailed(e) => r.result == Err(ProcessSpawn(e))
      case Finished(status, out, err) => r.result == Classify(status, out, err)
    ensures r.result.Err? ==> !r.result.error.ProcessSignaled?
  {
    var (proc1, paths) := GetBundlePaths(env, proc);
    match paths
    case Err(e) => Exec(proc1, None, Err(e))
    case Ok(p) =>
      var call := PipeCall(p, input);
      var result := match child(call.0, call.1)
        case SpawnFailed(e) => Err(ProcessSpawn(e))
        case StdinFailed(e) => Err(StdinWrite(e))
        case WaitFailed(e) => Err(ProcessSpawn(e))
        case Finished(status, out, err) => Classify(status, out, err);
      Exec(proc1, Some(call), result)
  }

  /** When rendering succeeds, the text returned is exactly what the child
      wrote to standard output. */
  lemma RenderedTextIsStdout(env: Env, proc: Process, input: string, child: Child)
    requires ExecutePipe(env, proc, input, child).result.Ok?
    ensures var r := ExecutePipe(env, proc, input, child);
      r.spawned.Some? && child(r.spawned.value.0, r.spawned.value.1).Finished? &&
      Utf8.Encode(r.result.value) == child(r.spawned.value.0, r.spawned.value.1).stdout
  {
  }
}

=== FILE: filesystem.dfy ===
/** The host filesystem as the crate sees it through `std::fs`: a tree of
    directories and files, addressed by resolved names, plus the set of places
    where the host refuses to create, write or read (permissions, a full disk).
    Every operation returns the filesystem as it stands afterwards together
    with its error, so a failure part-way is visible. */
module Fs {
  import opened Wrappers
  import opened Paths
  import opened Errors
  import Utf8

  /** The mode `File::create` asks for (0o666); the host's umask is not modelled. */
  const NewFileMode: nat := 0x1B6

  datatype Node = Dir | File(bytes: seq<Utf8.byte>, mode: nat)

  /** `denied` is where the host refuses to create, write or read; `full` is
      where it has no room left: a file can be created there, but writing any
      bytes into it fails. */
  datatype FileSystem = FileSystem(nodes: map<Key, Node>, denied: set<Key>, full: set<Key>)

  const ErrNotFound := IoError(NotFound, "No such file or directory (os error 2)")
  const ErrDenied := IoError(PermissionDenied, "Permission denied (os error 13)")
  const ErrExists := IoError(AlreadyExists, "File exists (os error 17)")
  const ErrNotDir := IoError(NotADirectory, "Not a directory (os error 20)")
  const ErrIsDir := IoError(IsADirectory, "Is a directory (os error 21)")
  const ErrNotUtf8 := IoError(InvalidData, "stream did not contain valid UTF-8")
  const ErrNoSpace := IoError(StorageFull, "No space left on device (os error 28)")

  /** `Path::exists`; the root always exists. */
  predicate Exists(fs: FileSystem, k: Key) {
    k == [] || k in fs.nodes
  }

  predicate IsDir(fs: FileSystem, k: Key) {
    k == [] || (k in fs.nodes && fs.nodes[k].Dir?)
  }

  predicate IsFile(fs: FileSystem, k: Key) {
    k in fs.nodes && fs.nodes[k].File?
  }

  /** Some proper ancestor of `k` is a file, so nothing can live at `k`. */
  predicate FileAbove(fs: FileSystem, k: Key) {
    exists j :: 0 <= j < |k| && IsFile(fs, k[..j])
  }

  /** `k` names a node. The tree condition below is stated over this rather
      than over `in`, so that one node's parent does not set off the parent's
      parent, and so on up. */
  predicate Present(fs: FileSystem, k: Key) {
    k in fs.nodes
  }

  /** A tree: the root is implicit, and everything else hangs off a directory. */
  ghost predicate Valid(fs: FileSystem) {
    && [] !in fs.nodes
    && forall k {:trigger Present(fs, k)} :: Present(fs, k) ==> |k| > 0 && IsDir(fs, k[..|k| - 1])
  }

  /** In a tree a node's parent is a directory. */
  lemma ParentIsDir(fs: FileSystem, k: Key)
    ensures Valid(fs) && k in fs.nodes ==> |k| > 0 && IsDir(fs, k[..|k| - 1])
  {
    if Valid(fs) && k in fs.nodes {
      assert Present(fs, k);
    }
  }

  /** `fs2` holds everything `fs1` holds, unchanged. */
  ghost predicate Keeps(fs1: FileSystem, fs2: FileSystem) {
    && fs2.denied == fs1.denied
    && fs2.full == fs1.full
    && forall k :: k in fs1.nodes ==> k in fs2.nodes && fs2.nodes[k] == fs1.nodes[k]
  }

  /** As `Keeps`, except perhaps at `k`. */
  ghost predicate KeepsExcept(fs1: FileSystem, fs2: FileSystem, k: Key) {
    && fs2.denied == fs1.denied
    && fs2.full == fs1.full
    && forall x :: x in fs1.nodes && x != k ==> x in fs2.nodes && fs2.nodes[x] == fs1.nodes[x]
  }

  /** A failed write left `key` as `File::create` made it, empty, and
      everything else as it was. */
  ghost predicate LeftEmpty(fs: FileSystem, fs': FileSystem, key: Key) {
    KeepsExcept(fs, fs', key) && IsFile(fs', key) && fs'.nodes[key].bytes == []
  }

  /** In a tree every ancestor of a directory is a directory. */
  lemma {:induction false} DirAncestors(fs: FileSystem, k: Key, j: nat)
    requires Valid(fs) && IsDir(fs, k) && j <= |k|
    ensures IsDir(fs, k[..j])
    decreases |k|
  {
    if j == |k| {
      assert k[..j] == k;
    } else {
      ParentIsDir(fs, k);
      DirAncestors(fs, k[..|k| - 1], j);
      assert k[..|k| - 1][..j] == k[..j];
    }
  }

  lemma AllDirAncestors(fs: FileSystem, k: Key)
    ensures Valid(fs) && IsDir(fs, k) ==> forall j :: 0 <= j <= |k| ==> IsDir(fs, k[..j])
  {
    if Valid(fs) && IsDir(fs, k) {
      forall j | 0 <= j <= |k| ensures IsDir(fs, k[..j]) {
        DirAncestors(fs, k, j);
      }
    }
  }

  /** `fs::create_dir_all`: `k` and every ancestor become directories, created
      from the top down; the first refusal stops it, leaving what it created. */
  function CreateDirAll(fs: FileSystem, k: Key): (r: (FileSystem, Option<IoError>))
    ensures Keeps(fs, r.0)
    ensures forall x :: x in r.0.nodes && x !in fs.nodes ==> IsPrefix(x, k) && r.0.nodes[x] == Dir
    ensures Valid(fs) && r.1.None? ==> forall j :: 0 <= j <= |k| ==> IsDir(r.0, k[..j])
    ensures Valid(fs) ==> Valid(r.0)
    decreases |k|
  {
    if IsDir(fs, k) then
      AllDirAncestors(fs, k);
      (fs, None)
    else if k in fs.nodes then (fs, Some(ErrExists))
    else if FileAbove(fs, k) then (fs, Some(ErrNotDir))
    else
      var (fs1, err) := CreateDirAll(fs, Parent(k));
      if err.Some? then
        PrefixOfParent(k);
        (fs1, err)
      else if k in fs1.denied then
        PrefixOfParent(k);
        (fs1, Some(ErrDenied))
      else
        var fs2 := fs1.(nodes := fs1.nodes[k := Dir]);
        AddDir(fs, fs1, k);
        (fs2, None)
  }

  lemma PrefixOfParent(k: Key)
    requires |k| > 0
    ensures forall x :: IsPrefix(x, Parent(k)) ==> IsPrefix(x, k)
  {
    forall x | IsPrefix(x, Parent(k)) ensures IsPrefix(x, k) {
      assert k[..|x|] == Parent(k)[..|x|];
    }
  }

  /** The last step of `create_dir_all`: with every ancestor in place, adding
      `k` as a directory keeps all promises. */
  lemma AddDir(fs: FileSystem, fs1: FileSystem, k: Key)
    requires |k| > 0 && k !in fs1.nodes && k !in fs.nodes
    requires Keeps(fs, fs1)
    requires forall x :: x in fs1.nodes && x !in fs.nodes ==> IsPrefix(x, Parent(k)) && fs1.nodes[x] == Dir
    requires Valid(fs) ==> forall j :: 0 <= j <= |k| - 1 ==> IsDir(fs1, Parent(k)[..j])
    requires Valid(fs) ==> Valid(fs1)
    ensures var fs2 := fs1.(nodes := fs1.nodes[k := Dir]);
      && Keeps(fs, fs2)
      && (forall x :: x in fs2.nodes && x !in fs.nodes ==> IsPrefix(x, k) && fs2.nodes[x] == Dir)
      && (Valid(fs) ==> forall j :: 0 <= j <= |k| ==> IsDir(fs2, k[..j]))
      && (Valid(fs) ==> Valid(fs2))
  {
    var fs2 := fs1.(nodes := fs1.nodes[k := Dir]);
    AddDirNew(fs, fs1, k);
    if Valid(fs) {
      AddDirAncestors(fs1, k);
      AddDirValid(fs1, k);
    }
  }

  lemma AddDirNew(fs: FileSystem, fs1: FileSystem, k: Key)
    requires |k| > 0
    requires forall x :: x in fs1.nodes && x !in fs.nodes ==> IsPrefix(x, Parent(k)) && fs1.nodes[x] == Dir
    ensures var fs2 := fs1.(nodes := fs1.nodes[k := Dir]);
      forall x :: x in fs2.nodes && x !in fs.nodes ==> IsPrefix(x, k) && fs2.nodes[x] == Dir
  {
    PrefixOfParent(k);
  }

  lemma AddDirAncestors(fs1: FileSystem, k: Key)
    requires |k| > 0
    requires forall j :: 0 <= j <= |k| - 1 ==> IsDir(fs1, Parent(k)[..j])
    ensures var fs2 := fs1.(nodes := fs1.nodes[k := Dir]);
      forall j :: 0 <= j <= |k| ==> IsDir(fs2, k[..j])
  {
    var fs2 := fs1.(nodes := fs1.nodes[k := Dir]);
    forall j | 0 <= j <= |k| ensures IsDir(fs2, k[..j]) {
      if j == |k| {
        assert k[..j] == k;
      } else {
        assert k[..j] == Parent(k)[..j];
        assert IsDir(fs1, Parent(k)[..j]);
      }
    }
  }

  lemma AddDirValid(fs1: FileSystem, k: Key)
    requires |k| > 0 && Valid(fs1) && IsDir(fs1, Parent(k))
    ensures Valid(fs1.(nodes := fs1.nodes[k := Dir]))
  {
    var fs2 := fs1.(nodes := fs1.nodes[k := Dir]);
    forall x | Present(fs2, x) ensures |x| > 0 && IsDir(fs2, x[..|x| - 1]) {
      ParentIsDir(fs1, x);
    }
  }

  /** On a tree, `create_dir_all` succeeds exactly when no name along `k` is a
      file and the host lets it create every directory that is missing. */
  lemma {:induction false} CreateDirAllSucceedsIff(fs: FileSystem, k: Key)
    requires Valid(fs)
    ensures CreateDirAll(fs, k).1.None? <==>
      forall j :: 0 < j <= |k| ==> !IsFile(fs, k[..j]) && (k[..j] !in fs.nodes ==> k[..j] !in fs.denied)
    decreases |k|
  {
    if IsDir(fs, k) {
      AllDirAncestors(fs, k);
    } else if k in fs.nodes {
      assert k[..|k|] == k;
    } else if FileAbove(fs, k) {
      var j :| 0 <= j < |k| && IsFile(fs, k[..j]);
      assert k[..j] in fs.nodes;
    } else {
      var p := Parent(k);
      CreateDirAllSucceedsIff(fs, p);
      assert forall j :: 0 <= j <= |p| ==> p[..j] == k[..j];
      assert k[..|k|] == k;
    }
  }

  /** Once `create_dir_all` has succeeded, running it again changes nothing. */
  lemma CreateDirAllIdempotent(fs: FileSystem, k: Key)
    requires Valid(fs) && CreateDirAll(fs, k).1.None?
    ensures CreateDirAll(CreateDirAll(fs, k).0, k) == (CreateDirAll(fs, k).0, None)
  {
    var fs1 := CreateDirAll(fs, k).0;
    assert IsDir(fs1, k[..|k|]);
    assert k[..|k|] == k;
  }

  /** The mode of the file at `k` once `File::create` has opened it: an
      existing file keeps its mode, a new one gets the default. */
  function CreatedMode(fs: FileSystem, k: Key): nat {
    if IsFile(fs, k) then fs.nodes[k].mode else NewFileMode
  }

  /** `File::create` can open `k`: its parent is a directory, it is not a
      directory itself, and the host allows it. */
  predicate CanCreate(fs: FileSystem, k: Key) {
    |k| > 0 && IsDir(fs, Parent(k)) && !IsDir(fs, k) && k !in fs.denied
  }

  /** `File::create`: afterwards the file at `k` exists and is empty, whether
      it was new or truncated. */
  function CreateFile(fs: FileSystem, k: Key): (r: (FileSystem, Option<IoError>))
    ensures r.1.None? <==> CanCreate(fs, k)
    ensures r.1.Some? ==> r.0 == fs
    ensures r.1.None? ==> r.0 == fs.(nodes := fs.nodes[k := File([], CreatedMode(fs, k))])
    ensures Valid(fs) ==> Valid(r.0)
  {
    if IsDir(fs, k) then (fs, Some(ErrIsDir))
    else if !IsDir(fs, Parent(k)) then
      if Exists(fs, Parent(k)) || FileAbove(fs, Parent(k)) then (fs, Some(ErrNotDir))
      else (fs, Some(ErrNotFound))
    else if k in fs.denied then (fs, Some(ErrDenied))
    else
      AddNodeValid(fs, k, File([], CreatedMode(fs, k)));
      (fs.(nodes := fs.nodes[k := File([], CreatedMode(fs, k))]), None)
  }

  /** `write_all` into the file at `k` that `File::create` has opened: the
      bytes land, unless the host has no room for them, in which case the
      file is left as it was opened. */
  function WriteAll(fs: FileSystem, k: Key, bytes: seq<Utf8.byte>): (r: (FileSystem, Option<IoError>))
    requires IsFile(fs, k)
    ensures r.1.Some? <==> |bytes| > 0 && k in fs.full
    ensures r.1.Some? ==> r == (fs, Some(ErrNoSpace))
    ensures r.1.None? ==> r.0 == fs.(nodes := fs.nodes[k := File(bytes, fs.nodes[k].mode)])
    ensures Valid(fs) ==> Valid(r.0)
  {
    if |bytes| > 0 && k in fs.full then (fs, Some(ErrNoSpace))
    else
      ReplaceFileValid(fs, k, File(bytes, fs.nodes[k].mode));
      (fs.(nodes := fs.nodes[k := File(bytes, fs.nodes[k].mode)]), None)
  }

  /** `File::create` followed by `write_all`, which is also what `fs::write`
      does: the file at `k` ends up holding exactly `bytes`, a new file with
      the default mode and an existing one with its own. When the create
      succeeds and the write does not, the file is left created and empty. */
  function WriteFile(fs: FileSystem, k: Key, bytes: seq<Utf8.byte>): (r: (FileSystem, Option<IoError>))
    ensures r.1.None? <==> CanCreate(fs, k) && (|bytes| == 0 || k !in fs.full)
    ensures r.1.None? ==> r.0 == fs.(nodes := fs.nodes[k := File(bytes, CreatedMode(fs, k))])
    ensures r.1.Some? && !CanCreate(fs, k) ==> r.0 == fs
    ensures r.1.Some? && CanCreate(fs, k) ==>
      r.1 == Some(ErrNoSpace) && r.0 == fs.(nodes := fs.nodes[k := File([], CreatedMode(fs, k))])
    ensures Valid(fs) ==> Valid(r.0)
  {
    var (fs1, createErr) := CreateFile(fs, k);
    if createErr.Some? then (fs1, createErr)
    else
      assert fs1.nodes[k := File(bytes, CreatedMode(fs, k))] == fs.nodes[k := File(bytes, CreatedMode(fs, k))];
      WriteAll(fs1, k, bytes)
  }

  /** `fs::rename` of the file at `from` onto `to`, in one step: `to` holds
      the file afterwards, replacing any file there, and `from` is gone. */
  function RenameFile(fs: FileSystem, from: Key, to: Key): (r: (FileSystem, Option<IoError>))
    ensures r.1.None? <==> IsFile(fs, from) && from !in fs.denied && CanCreate(fs, to)
    ensures r.1.Some? ==> r.0 == fs
    ensures r.1.None? ==> r.0 == fs.(nodes := (fs.nodes - {from})[to := fs.nodes[from]])
    ensures Valid(fs) ==> Valid(r.0)
  {
    if !IsFile(fs, from) then
      if IsDir(fs, from) then (fs, Some(ErrIsDir)) else (fs, Some(ErrNotFound))
    else if from in fs.denied then (fs, Some(ErrDenied))
    else
      match CreateFile(fs, to)
      case (_, Some(e)) => (fs, Some(e))
      case (_, None) =>
        var fs1 := fs.(nodes := (fs.nodes - {from})[to := fs.nodes[from]]);
        RenameValid(fs, from, to);
        (fs1, None)
  }

  lemma RenameValid(fs: FileSystem, from: Key, to: Key)
    requires IsFile(fs, from) && CanCreate(fs, to)
    ensures Valid(fs) ==> Valid(fs.(nodes := (fs.nodes - {from})[to := fs.nodes[from]]))
  {
    var fs1 := fs.(nodes := (fs.nodes - {from})[to := fs.nodes[from]]);
    if Valid(fs) {
      forall x | Present(fs1, x) ensures |x| > 0 && IsDir(fs1, x[..|x| - 1]) {
        if x != to {
          ParentIsDir(fs, x);
        }
      }
    }
  }

  /** Replacing a file keeps the tree. */
  lemma ReplaceFileValid(fs: FileSystem, k: Key, n: Node)
    requires IsFile(fs, k)
    ensures Valid(fs) ==> Valid(fs.(nodes := fs.nodes[k := n]))
  {
    if Valid(fs) {
      ParentIsDir(fs, k);
      AddNodeValid(fs, k, n);
    }
  }

  /** Setting the node at `k`, whose parent is a directory, keeps the tree. */
  lemma AddNodeValid(fs: FileSystem, k: Key, n: Node)
    requires |k| > 0 && IsDir(fs, Parent(k)) && (k in fs.nodes ==> fs.nodes[k].File?)
    ensures Valid(fs) ==> Valid(fs.(nodes := fs.nodes[k := n]))
  {
    var fs1 := fs.(nodes := fs.nodes[k := n]);
    if Valid(fs) {
      forall x | Present(fs1, x) ensures |x| > 0 && IsDir(fs1, x[..|x| - 1]) {
        ParentIsDir(fs, x);
      }
    }
  }

  /** `fs::read`: the bytes of the file at `k`. */
  function ReadFile(fs: FileSystem, k: Key): (r: Result<seq<Utf8.byte>, IoError>)
    ensures r.Ok? <==> IsFile(fs, k) && k !in fs.denied
    ensures r.Ok? ==> r.value == fs.nodes[k].bytes
  {
    if !Exists(fs, k) then
      if FileAbove(fs, k) then Err(ErrNotDir) else Err(ErrNotFound)
    else if k in fs.denied then Err(ErrDenied)
    else if !IsFile(fs, k) then Err(ErrIsDir)
    else Ok(fs.nodes[k].bytes)
  }

  /** `fs::read_to_string`: the file's bytes, which must be UTF-8. */
  function ReadToString(fs: FileSystem, k: Key): (r: Result<string, IoError>)
    ensures r.Ok? <==> IsFile(fs, k) && k !in fs.denied && Utf8.Decode(fs.nodes[k].bytes).Ok?
    ensures r.Ok? ==> Utf8.Encode(r.value) == fs.nodes[k].bytes
    ensures IsFile(fs, k) && k !in fs.denied && r.Err? ==> r.error == ErrNotUtf8
  {
    var bytes :- ReadFile(fs, k);
    match Utf8.Decode(bytes)
    case Ok(text) =>
      Utf8.EncodeDecode(bytes);
      Ok(text)
    case Err(_) => Err(ErrNotUtf8)
  }
}

=== FILE: lib.dfy ===
/** The library's entry points (src/lib.rs): render text, render a file to a
    file, render text to a file. Each runs one pipe-mode execution; the file
    variants read and write through the modelled filesystem. */
module Lib {
  import opened Wrappers
  import opened Paths
  import opened Fs
  import opened Errors
  import opened Binary
  import opened Executor
  import Utf8

  /** `render`: the SVG for `plantuml`, straight from the executor. */
  function Render(env: Env, proc: Process, plantuml: string, child: Child): (r: Exec<string>)
    ensures r == ExecutePipe(env, proc, plantuml, child)
    ensures r.spawned.None? ==> r.result.Err? && r.result.error.BinaryExtraction?
    ensures r.result.Ok? ==> r.spawned.Some? && Utf8.Decode(r.spawned.value.1) == Ok(plantuml)
    ensures r.result.Ok? ==>
      && child(r.spawned.value.0, r.spawned.value.1).Finished?
      && Utf8.Encode(r.result.value) == child(r.spawned.value.0, r.spawned.value.1).stdout
  {
    ExecutePipe(env, proc, plantuml, child)
  }

  /** `fs::write` of the SVG, with a failure naming the output path. The
      write creates (or truncates) the file before writing, so a volume with
      no room left ends up with an empty output file and the error. */
  function WriteSvg(proc: Process, output: Path, svg: string): (r: (Process, Result<(), PlantUmlError>))
    ensures r.1.Ok? <==> CanCreate(proc.fs, KeyOf(output)) && (svg == "" || KeyOf(output) !in proc.fs.full)
    ensures r.1.Err? ==> r.1.error.OutputWrite? && r.1.error.path == output && r.0.extracted == proc.extracted
    ensures r.1.Err? ==>
      || r.0 == proc
      || (r.1.error.source == ErrNoSpace && LeftEmpty(proc.fs, r.0.fs, KeyOf(output)))
    ensures r.1.Ok? ==>
      && r.0.extracted == proc.extracted
      && r.0.fs.denied == proc.fs.denied
      && IsFile(r.0.fs, KeyOf(output))
      && Utf8.Decode(r.0.fs.nodes[KeyOf(output)].bytes) == Ok(svg)
      && r.0.fs.nodes == proc.fs.nodes[KeyOf(output) := r.0.fs.nodes[KeyOf(output)]]
  {
    Utf8.DecodeEncode(svg);
    var (fs1, err) := WriteFile(proc.fs, KeyOf(output), Utf8.Encode(svg));
    match err
    case Some(e) => (proc.(fs := fs1), Err(OutputWrite(output, e)))
    case None => (proc.(fs := fs1), Ok(()))
  }

  /** `render_file`: read the input as UTF-8 text, render it, write the SVG. */
  function RenderFile(env: Env, proc: Process, input: Path, output: Path, child: Child): (r: Exec<()>)
    ensures ReadToString(proc.fs, KeyOf(input)).Err? ==>
      r == Exec(proc, None, Err(InputRead(input, ReadToString(proc.fs, KeyOf(input)).error)))
    ensures ReadToString(proc.fs, KeyOf(input)).Ok? ==>
      var x := ExecutePipe(env, proc, ReadToString(proc.fs, KeyOf(input)).value, child);
      && r.spawned == x.spawned
      && (x.result.Err? ==> r.proc == x.proc && r.result == Err(x.result.error))
      && (x.result.Ok? ==> (r.proc, r.result) == WriteSvg(x.proc, output, x.result.value))
  {
    match ReadToString(proc.fs, KeyOf(input))
    case Err(e) => Exec(proc, None, Err(InputRead(input, e)))
    case Ok(plantuml) => RenderToFile(env, proc, plantuml, output, child)
  }

  /** `render_to_file`: render the text, write the SVG. */
  function RenderToFile(env: Env, proc: Process, plantuml: string, output: Path, child: Child): (r: Exec<()>)
    ensures var x := ExecutePipe(env, proc, plantuml, child);
      && r.spawned == x.spawned
      && (x.result.Err? ==> r.proc == x.proc && r.result == Err(x.result.error))
      && (x.result.Ok? ==> (r.proc, r.result) == WriteSvg(x.proc, output, x.result.value))
  {
    var x := ExecutePipe(env, proc, plantuml, child);
    match x.result
    case Err(e) => Exec(x.proc, x.spawned, Err(e))
    case Ok(svg) =>
      var (proc1, res) := WriteSvg(x.proc, output, svg);
      Exec(proc1, x.spawned, res)
  }

  /** Rendering a file that holds `plantuml` has the same effect as rendering
      `plantuml` itself to the same output. */
  lemma RenderFileIsReadThenRenderToFile(env: Env, proc: Process, input: Path, output: Path, child: Child)
    requires IsFile(proc.fs, KeyOf(input)) && KeyOf(input) !in proc.fs.denied
    requires Utf8.Decode(proc.fs.nodes[KeyOf(input)].bytes).Ok?
    ensures RenderFile(env, proc, input, output, child) ==
      RenderToFile(env, proc, Utf8.Decode(proc.fs.nodes[KeyOf(input)].bytes).value, output, child)
  {
    var text := ReadToString(proc.fs, KeyOf(input));
    Utf8.EncodeDecode(proc.fs.nodes[KeyOf(input)].bytes);
    assert Utf8.Encode(text.value) == proc.fs.nodes[KeyOf(input)].bytes;
    Utf8.DecodeEncode(text.value);
  }

  /** A successful `render_file` leaves exactly the child's standard output
      in the output file, and changes no other file or directory beyond what
      resolving the bundle did. */
  lemma RenderFileWritesStdout(env: Env, proc: Process, input: Path, output: Path, child: Child)
    requires RenderFile(env, proc, input, output, child).result.Ok?
    ensures var r := RenderFile(env, proc, input, output, child);
      var text := ReadToString(proc.fs, KeyOf(input)).value;
      var x := ExecutePipe(env, proc, text, child);
      && r.spawned.Some? && child(r.spawned.value.0, r.spawned.value.1).Finished?
      && IsFile(r.proc.fs, KeyOf(output))
      && r.proc.fs.nodes[KeyOf(output)].bytes == child(r.spawned.value.0, r.spawned.value.1).stdout
      && r.proc.fs.nodes == x.proc.fs.nodes[KeyOf(output) := r.proc.fs.nodes[KeyOf(output)]]
  {
    var r := RenderFile(env, proc, input, output, child);
    var text := ReadToString(proc.fs, KeyOf(input)).value;
    var x := ExecutePipe(env, proc, text, child);
    var out := child(x.spawned.value.0, x.spawned.value.1).stdout;
    assert Utf8.Encode(x.result.value) == out;
    var bytes := r.proc.fs.nodes[KeyOf(output)].bytes;
    Utf8.EncodeDecode(bytes);
  }
}

=== FILE: lifecycle.dfy ===
/** The bundle's life from build to run: what the build script writes is what
    the runtime unpacks. The zip codec is taken to read back what it wrote
    (`WrittenAll`), so this joins build.rs and src/binary.rs. */
module Lifecycle {
  import opened Wrappers
  import opened Text
  import opened Paths
  import opened Fs
  import opened Archive
  import opened Build
  import opened Binary
  import Utf8

  /** An entry `dir/rest` lands in `dir` under the cache directory. */
  lemma EntryKeyUnder(cache: Path, dir: string, rest: string)
    requires IsName(dir) && '/' !in dir && dir[0] != '/'
    ensures EntryKey(cache, dir + "/" + rest) == KeyOf(cache) + [dir] + KeyOf(rest)
  {
    KeyOfSlash(dir, rest);
    EntryKeyRelative(cache, dir + "/" + rest, [dir] + KeyOf(rest));
  }

  lemma EntryKeyRelative(cache: Path, name: string, k: Key)
    requires |name| > 0 && name[0] != '/' && KeyOf(name) == k
    ensures EntryKey(cache, name) == KeyOf(cache) + k
  {
    KeyOfJoin(cache, name);
  }

  /** No entry under `jre/` can land on the JAR's place. */
  lemma JreEntryMissesJar(cache: Path, name: string)
    requires StartsWith(name, JrePrefix)
    ensures EntryKey(cache, name) != EntryKey(cache, JarName)
  {
    var rest := name[4..];
    assert name == "jre" + "/" + rest;
    UnderDirMissesFile(cache, "jre", rest, JarName);
  }

  /** An entry under a directory never lands on a file of another name
      beside it. */
  lemma UnderDirMissesFile(cache: Path, dir: string, rest: string, file: string)
    requires IsName(dir) && '/' !in dir && dir[0] != '/'
    requires IsName(file) && '/' !in file && dir != file
    ensures EntryKey(cache, dir + "/" + rest) != EntryKey(cache, file)
  {
    EntryKeyUnder(cache, dir, rest);
    KeyOfJoinName(cache, file);
    var k := |KeyOf(cache)|;
    assert EntryKey(cache, dir + "/" + rest)[k] == dir;
    assert EntryKey(cache, file)[k] == file;
  }

  lemma StartsWithTrans(a: string, b: string, c: string)
    requires StartsWith(a, b) && StartsWith(b, c)
    ensures StartsWith(a, c)
  {
    assert a[..|c|] == a[..|b|][..|c|];
  }

  /** The zip writer keeps an entry under `jre/` there. */
  lemma WrittenUnderJre(e: BundleEntry)
    requires StartsWith(e.name, JrePrefix)
    ensures StartsWith(WrittenAs(e).name, JrePrefix)
  {
    if e.BundleDir? {
      StartsWithTrans(DirName(e.name), e.name, JrePrefix);
    }
  }

  /** An archive that starts with the JAR and has no other entry aimed at its
      place, once unpacked without error, leaves the JAR's bytes where the
      runtime looks for them. */
  lemma JarSlotLands(jar: seq<Utf8.byte>, slots: seq<ZipSlot>, cache: Path, fs: FileSystem)
    requires |slots| >= 1 && slots[0] == Stored(JarName, Ok(jar))
    requires forall j :: 0 < j < |slots| && slots[j].Stored? ==> EntryKey(cache, slots[j].name) != EntryKey(cache, JarName)
    requires ExtractEntries(cache, fs, slots).1.None?
    ensures var fs' := ExtractEntries(cache, fs, slots).0;
      IsFile(fs', EntryKey(cache, JarName)) && fs'.nodes[EntryKey(cache, JarName)].bytes == jar
  {
    FileEntriesHoldLastBytes(cache, fs, slots, 0);
  }

  /** The JAR's entry lands where `get_bundle_paths` points. */
  lemma JarKey(cache: Path)
    ensures EntryKey(cache, JarName) == KeyOf(PathsIn(cache).plantumlJar)
  {
    KeyOfJoinName(cache, JarName);
  }

  /** A bundle that starts with the JAR and keeps everything else under
      `jre/`, once unpacked without error, leaves the JAR's bytes exactly
      where the runtime looks for them. */
  lemma JarLandsWhereRuntimeLooks(jar: seq<Utf8.byte>, es: seq<BundleEntry>, cache: Path, fs: FileSystem)
    requires |es| >= 1 && es[0] == JarEntry(jar)
    requires forall i :: 1 <= i < |es| ==> StartsWith(es[i].name, JrePrefix)
    requires ExtractEntries(cache, fs, WrittenAll(es)).1.None?
    ensures var fs' := ExtractEntries(cache, fs, WrittenAll(es)).0;
      IsFile(fs', KeyOf(PathsIn(cache).plantumlJar)) && fs'.nodes[KeyOf(PathsIn(cache).plantumlJar)].bytes == jar
  {
    var slots := WrittenAll(es);
    forall j | 0 < j < |slots| && slots[j].Stored?
      ensures EntryKey(cache, slots[j].name) != EntryKey(cache, JarName)
    {
      WrittenUnderJre(es[j]);
      JreEntryMissesJar(cache, slots[j].name);
    }
    JarSlotLands(jar, slots, cache, fs);
    JarKey(cache);
  }

  /** What either repackaging pipeline produces, unpacked without error,
      puts the downloaded JAR where `get_bundle_paths` points. */
  lemma RepackagedJarReachesRuntime(p: Platform, jar: seq<Utf8.byte>, jre: JreDownload, unixHost: bool, cache: Path, fs: FileSystem)
    requires Repackage(p, jar, jre, unixHost).Ok?
    requires ExtractEntries(cache, fs, WrittenAll(Repackage(p, jar, jre, unixHost).value)).1.None?
    ensures var fs' := ExtractEntries(cache, fs, WrittenAll(Repackage(p, jar, jre, unixHost).value)).0;
      IsFile(fs', KeyOf(PathsIn(cache).plantumlJar)) && fs'.nodes[KeyOf(PathsIn(cache).plantumlJar)].bytes == jar
  {
    BundleUnderJre(jar, jre.asZip, jre.asTar, p.isMacos, unixHost);
    JarLandsWhereRuntimeLooks(jar, Repackage(p, jar, jre, unixHost).value, cache, fs);
  }

  /** The mode a tar entry carried into the bundle does not reach the disk:
      a file the runtime creates gets the default mode whatever was stored. */
  lemma StoredModeIgnored(cache: Path, fs: FileSystem, name: string, data: seq<Utf8.byte>, mode: nat)
    requires !IsDirEntry(name) && !IsFile(fs, EntryKey(cache, name))
    requires ExtractEntries(cache, fs, WrittenAll([BundleFile(name, data, Some(mode))])).1.None?
    ensures var fs' := ExtractEntries(cache, fs, WrittenAll([BundleFile(name, data, Some(mode))])).0;
      IsFile(fs', EntryKey(cache, name)) && fs'.nodes[EntryKey(cache, name)] == Fs.File(data, NewFileMode)
  {
    var slots := WrittenAll([BundleFile(name, data, Some(mode))]);
    assert slots[0] == Stored(name, Ok(data));
    FileEntriesHoldLastBytes(cache, fs, slots, 0);
  }
}

=== FILE: paths.dfy ===
/** Paths as the crate builds them: raw strings joined the way `PathBuf::push`
    joins them on Unix, and resolved to a list of names the way
    `Path::components` reads them. */
module Paths {
  import opened Text

  type Path = string

  /** What a path resolves to: its names, root to leaf. */
  type Key = seq<string>

  predicate IsAbsolute(p: Path) {
    |p| > 0 && p[0] == '/'
  }

  /** `base.join(rel)`: an absolute `rel` replaces `base`; otherwise a `/` is
      inserted unless `base` is empty or already ends in one. */
  function Join(base: Path, rel: Path): (r: Path)
    ensures IsAbsolute(rel) ==> r == rel
    ensures !IsAbsolute(rel) ==> StartsWith(r, base)
  {
    if IsAbsolute(rel) then rel
    else if |base| > 0 && base[|base| - 1] != '/' then base + "/" + rel
    else base + rel
  }

  /** `str::split('/')`: the pieces between separators, empty ones included. */
  function Split(s: string): (r: seq<string>)
    ensures |r| >= 1
    ensures forall piece :: piece in r ==> '/' !in piece
  {
    if |s| == 0 then [""]
    else
      var rest := Split(s[1..]);
      if s[0] == '/' then [""] + rest else [[s[0]] + rest[0]] + rest[1..]
  }

  /** The pieces glued back together with `/`. */
  function Unsplit(pieces: seq<string>): string
    requires |pieces| >= 1
  {
    if |pieces| == 1 then pieces[0] else pieces[0] + "/" + Unsplit(pieces[1..])
  }

  /** Splitting loses nothing: the pieces glue back into the original string. */
  lemma {:induction false} UnsplitSplit(s: string)
    ensures Unsplit(Split(s)) == s
  {
    if |s| > 0 {
      var rest := Split(s[1..]);
      UnsplitSplit(s[1..]);
      if s[0] == '/' {
        assert Split(s)[1..] == rest;
        assert s == "" + "/" + s[1..];
      } else {
        var r := Split(s);
        if |rest| == 1 {
          assert r == [[s[0]] + rest[0]];
        } else {
          assert r[1..] == rest[1..];
          assert Unsplit(rest) == rest[0] + "/" + Unsplit(rest[1..]);
        }
      }
    }
  }

  lemma {:induction false} SplitAround(a: string, b: string)
    ensures Split(a + "/" + b) == Split(a) + Split(b)
  {
    if |a| == 0 {
      assert a + "/" + b == "/" + b;
      assert ("/" + b)[1..] == b;
    } else {
      assert (a + "/" + b)[1..] == a[1..] + "/" + b;
      SplitAround(a[1..], b);
    }
  }

  /** A piece that names something: `Path::components` skips empty pieces and `.`. */
  predicate IsName(piece: string) {
    piece != "" && piece != "."
  }

  function Names(pieces: seq<string>): (r: Key)
    ensures forall i :: 0 <= i < |r| ==> IsName(r[i])
    ensures |r| <= |pieces|
    ensures forall x :: x in r ==> x in pieces
  {
    if |pieces| == 0 then []
    else if IsName(pieces[0]) then [pieces[0]] + Names(pieces[1..])
    else Names(pieces[1..])
  }

  lemma {:induction false} NamesAppend(a: seq<string>, b: seq<string>)
    ensures Names(a + b) == Names(a) + Names(b)
  {
    if |a| > 0 {
      assert (a + b)[1..] == a[1..] + b;
      NamesAppend(a[1..], b);
    } else {
      assert a + b == b;
    }
  }

  /** The names a path resolves to. A leading `/` is not recorded: the model
      does not tell absolute from relative paths. */
  function KeyOf(p: Path): (r: Key)
    ensures forall i :: 0 <= i < |r| ==> IsName(r[i]) && '/' !in r[i]
  {
    Names(Split(p))
  }

  /** A name without `/` resolves to itself. */
  lemma NameKey(name: string)
    requires IsName(name) && '/' !in name
    ensures KeyOf(name) == [name]
  {
    SingleSplit(name);
  }

  lemma {:induction false} SingleSplit(s: string)
    requires '/' !in s
    ensures Split(s) == [s]
  {
    if |s| > 0 {
      SingleSplit(s[1..]);
      assert [s[0]] + s[1..] == s;
    }
  }

  /** Joining a relative path appends its names to the base's names. */
  lemma KeyOfJoin(base: Path, rel: Path)
    requires !IsAbsolute(rel)
    ensures KeyOf(Join(base, rel)) == KeyOf(base) + KeyOf(rel)
  {
    if |base| > 0 && base[|base| - 1] != '/' {
      SplitAround(base, rel);
      NamesAppend(Split(base), Split(rel));
    } else if |base| == 0 {
      assert Join(base, rel) == rel;
      assert KeyOf(base) == [];
    } else {
      var b' := base[..|base| - 1];
      assert base == b' + "/" + "";
      assert Join(base, rel) == b' + "/" + rel;
      SplitAround(b', rel);
      NamesAppend(Split(b'), Split(rel));
      SplitAround(b', "");
      NamesAppend(Split(b'), Split(""));
    }
  }

  /** A path `dir/rest` resolves to `dir` followed by what `rest` resolves to. */
  lemma KeyOfSlash(dir: string, rest: string)
    requires IsName(dir) && '/' !in dir
    ensures KeyOf(dir + "/" + rest) == [dir] + KeyOf(rest)
  {
    SplitAround(dir, rest);
    NamesAppend(Split(dir), Split(rest));
    NameKey(dir);
  }

  /** Joining a single name appends exactly that name. */
  lemma KeyOfJoinName(base: Path, name: string)
    requires IsName(name) && '/' !in name
    ensures KeyOf(Join(base, name)) == KeyOf(base) + [name]
  {
    KeyOfJoin(base, name);
    NameKey(name);
  }

  /** `Path::parent`, on resolved names. */
  function Parent(k: Key): Key
    requires |k| > 0
  {
    k[..|k| - 1]
  }

  predicate IsPrefix(a: Key, b: Key) {
    |a| <= |b| && b[..|a|] == a
  }
}

=== FILE: text.dfy ===
/** The handful of `str` operations the crate relies on, over `string`
    (a sequence of Unicode scalar values). */
module Text {
  import opened Wrappers

  predicate StartsWith(s: string, prefix: string) {
    |prefix| <= |s| && s[..|prefix|] == prefix
  }

  predicate EndsWith(s: string, suffix: string) {
    |suffix| <= |s| && s[|s| - |suffix|..] == suffix
  }

  /** `str::ends_with(char)` */
  predicate EndsWithChar(s: string, c: char) {
    |s| > 0 && s[|s| - 1] == c
  }

  lemma StartsWithAppend(s: string, prefix: string, rest: string)
    requires s == prefix + rest
    ensures StartsWith(s, prefix)
  {
    assert s[..|prefix|] == prefix;
  }

  lemma EndsWithAppend(s: string, prefix: string, suffix: string)
    requires s == prefix + suffix
    ensures EndsWith(s, suffix)
  {
    assert s[|prefix|..] == suffix;
  }

  /** `str::strip_prefix`: the rest of `s` after `prefix`, if `s` starts with it. */
  function StripPrefix(s: string, prefix: string): (r: Option<string>)
    ensures r.Some? <==> StartsWith(s, prefix)
    ensures r.Some? ==> prefix + r.value == s
  {
    if StartsWith(s, prefix) then Some(s[|prefix|..]) else None
  }

  /** `str::split_once(char)`: the text before and after the FIRST occurrence of `c`. */
  function SplitOnce(s: string, c: char): (r: Option<(string, string)>)
    ensures r.None? <==> c !in s
    ensures r.Some? ==> s == r.value.0 + [c] + r.value.1 && c !in r.value.0
  {
    if |s| == 0 then None
    else if s[0] == c then
      assert s == [] + [c] + s[1..];
      Some(([], s[1..]))
    else
      match SplitOnce(s[1..], c)
      case None => None
      case Some((before, after)) =>
        assert s == [s[0]] + s[1..];
        Some(([s[0]] + before, after))
  }

  /** `split_once` splits at the first occurrence and nowhere else. */
  lemma {:induction false} SplitOnceAt(before: string, c: char, after: string)
    requires c !in before
    ensures SplitOnce(before + [c] + after, c) == Some((before, after))
  {
    var s := before + [c] + after;
    if |before| > 0 {
      assert s[1..] == before[1..] + [c] + after;
      SplitOnceAt(before[1..], c, after);
      assert [s[0]] + before[1..] == before;
    } else {
      assert s[1..] == after;
    }
  }

  /** `str::contains(&str)`, written as a left-to-right scan. */
  predicate Contains(s: string, needle: string)
    decreases |s|
  {
    StartsWith(s, needle) || (|s| > 0 && Contains(s[1..], needle))
  }

  /** `needle` occurs in `s` at position `i`. */
  ghost predicate OccursAt(s: string, needle: string, i: int) {
    0 <= i && i + |needle| <= |s| && s[i..i + |needle|] == needle
  }

  /** The scan finds `needle` exactly when it occurs at some position. */
  lemma {:induction false} ContainsIffOccurs(s: string, needle: string)
    ensures Contains(s, needle) <==> exists i :: OccursAt(s, needle, i)
    decreases |s|
  {
    if StartsWith(s, needle) {
      assert OccursAt(s, needle, 0);
    } else if |s| == 0 {
    } else {
      ContainsIffOccurs(s[1..], needle);
      if exists i :: OccursAt(s[1..], needle, i) {
        var i :| OccursAt(s[1..], needle, i);
        assert s[i + 1..i + 1 + |needle|] == s[1..][i..i + |needle|];
        assert OccursAt(s, needle, i + 1);
      }
      if exists i :: OccursAt(s, needle, i) {
        var i :| OccursAt(s, needle, i);
        assert s[1..][i - 1..i - 1 + |needle|] == s[i..i + |needle|];
        assert OccursAt(s[1..], needle, i - 1);
      }
    }
  }

  /** A string contains each of its infixes. */
  lemma ContainsInfix(a: string, needle: string, b: string)
    ensures Contains(a + needle + b, needle)
  {
    var s := a + needle + b;
    assert s[|a|..|a| + |needle|] == needle;
    assert OccursAt(s, needle, |a|);
    ContainsIffOccurs(s, needle);
  }
}

=== FILE: utf8.dfy ===
/** UTF-8 as Rust uses it: `str::as_bytes` (encoding) and `String::from_utf8`
    (strict decoding), including the position and length Rust's `Utf8Error`
    reports for the first bad sequence. Dafny's `char` is a Unicode scalar value,
    exactly what a Rust `char` is. */
module Utf8 {
  import opened Wrappers
  import Decimal

  type byte = b: int | 0 <= b < 256

  /** Rust's `Utf8Error`: the length of the valid prefix, and the length of the
      bad sequence after it (`None` when the input ended in mid-sequence). */
  datatype Utf8Error = Utf8Error(validUpTo: nat, errorLen: Option<nat>)

  /** `Display` of `Utf8Error` (and of `FromUtf8Error`, which forwards to it). */
  function ErrorText(e: Utf8Error): string {
    match e.errorLen
    case Some(n) =>
      "invalid utf-8 sequence of " + Decimal.NatToDecimal(n) + " bytes from index "
      + Decimal.NatToDecimal(e.validUpTo)
    case None =>
      "incomplete utf-8 byte sequence from index " + Decimal.NatToDecimal(e.validUpTo)
  }

  predicate IsContinuation(b: byte) {
    0x80 <= b < 0xC0
  }

  /** The UTF-8 bytes of one scalar value. */
  function EncodeChar(c: char): (r: seq<byte>)
    ensures 1 <= |r| <= 4
  {
    var cp := c as int;
    if cp < 0x80 then [cp]
    else if cp < 0x800 then [0xC0 + cp / 64, 0x80 + cp % 64]
    else if cp < 0x1_0000 then [0xE0 + cp / 4096, 0x80 + (cp / 64) % 64, 0x80 + cp % 64]
    else [0xF0 + cp / 262144, 0x80 + (cp / 4096) % 64, 0x80 + (cp / 64) % 64, 0x80 + cp % 64]
  }

  /** `str::as_bytes` */
  function Encode(s: string): (r: seq<byte>)
    ensures |s| <= |r| <= 4 * |s|
  {
    if |s| == 0 then [] else EncodeChar(s[0]) + Encode(s[1..])
  }

  /** What the decoder makes of the bytes at the front of a non-empty input:
      one scalar value and how many bytes it took, or the `error_len` Rust
      reports for an invalid sequence there. */
  datatype Step = Scalar(c: char, len: nat) | Invalid(errorLen: Option<nat>)

  /** Second byte of a three-byte sequence, per the ranges Rust accepts
      (no overlong forms, no surrogates). */
  predicate SecondOfThree(b0: byte, b1: byte) {
    || (b0 == 0xE0 && 0xA0 <= b1 <= 0xBF)
    || (0xE1 <= b0 <= 0xEC && 0x80 <= b1 <= 0xBF)
    || (b0 == 0xED && 0x80 <= b1 <= 0x9F)
    || (0xEE <= b0 <= 0xEF && 0x80 <= b1 <= 0xBF)
  }

  /** Second byte of a four-byte sequence (no overlong forms, nothing above U+10FFFF). */
  predicate SecondOfFour(b0: byte, b1: byte) {
    || (b0 == 0xF0 && 0x90 <= b1 <= 0xBF)
    || (0xF1 <= b0 <= 0xF3 && 0x80 <= b1 <= 0xBF)
    || (b0 == 0xF4 && 0x80 <= b1 <= 0x8F)
  }

  function DecodeFirst(b: seq<byte>): (r: Step)
    requires |b| > 0
    ensures r.Scalar? ==> 1 <= r.len <= |b| && r.len <= 4
    ensures r.Invalid? && r.errorLen.Some? ==> 1 <= r.errorLen.value <= 3
  {
    var b0: int := b[0];
    if b0 < 0x80 then Scalar(b0 as char, 1)
    else if 0xC2 <= b0 <= 0xDF then
      if |b| < 2 then Invalid(None)
      else if !IsContinuation(b[1]) then Invalid(Some(1))
      else Scalar(Payload2(b0, b[1]) as char, 2)
    else if 0xE0 <= b0 <= 0xEF then
      if |b| < 2 then Invalid(None)
      else if !SecondOfThree(b0, b[1]) then Invalid(Some(1))
      else if |b| < 3 then Invalid(None)
      else if !IsContinuation(b[2]) then Invalid(Some(2))
      else Scalar(Payload3(b0, b[1], b[2]) as char, 3)
    else if 0xF0 <= b0 <= 0xF4 then
      if |b| < 2 then Invalid(None)
      else if !SecondOfFour(b0, b[1]) then Invalid(Some(1))
      else if |b| < 3 then Invalid(None)
      else if !IsContinuation(b[2]) then Invalid(Some(2))
      else if |b| < 4 then Invalid(None)
      else if !IsContinuation(b[3]) then Invalid(Some(3))
      else Scalar(Payload4(b0, b[1], b[2], b[3]) as char, 4)
    else Invalid(Some(1))
  }

  /** The code point bits carried by a two-, three- and four-byte sequence. */
  function Payload2(b0: int, b1: int): int {
    (b0 - 0xC0) * 64 + (b1 - 0x80)
  }

  function Payload3(b0: int, b1: int, b2: int): int {
    (b0 - 0xE0) * 4096 + (b1 - 0x80) * 64 + (b2 - 0x80)
  }

  function Payload4(b0: int, b1: int, b2: int, b3: int): int {
    (b0 - 0xF0) * 262144 + (b1 - 0x80) * 4096 + (b2 - 0x80) * 64 + (b3 - 0x80)
  }

  /** `String::from_utf8`: the text, or where and how the input stops being UTF-8. */
  function Decode(b: seq<byte>): (r: Result<string, Utf8Error>)
    ensures r.Ok? ==> |r.value| <= |b|
    ensures r.Err? ==> r.error.validUpTo < |b|
    decreases |b|
  {
    if |b| == 0 then Ok([])
    else
      match DecodeFirst(b)
      case Invalid(len) => Err(Utf8Error(0, len))
      case Scalar(c, n) =>
        match Decode(b[n..])
        case Ok(s) => Ok([c] + s)
        case Err(e) => Err(e.(validUpTo := e.validUpTo + n))
  }

  lemma DivMod64(x: int, q: int, r: int)
    requires 0 <= r < 64 && x == q * 64 + r
    ensures x / 64 == q && x % 64 == r
  {
  }

  /** The decoder reads back the one scalar value the encoder wrote. */
  lemma DecodeFirstEncodeChar(c: char, rest: seq<byte>)
    ensures DecodeFirst(EncodeChar(c) + rest) == Scalar(c, |EncodeChar(c)|)
  {
    var cp := c as int;
    var b := EncodeChar(c) + rest;
    var lo, q1 := cp % 64, cp / 64;
    var mid, q2 := q1 % 64, q1 / 64;
    var hi, q3 := q2 % 64, q2 / 64;
    assert cp == q1 * 64 + lo;
    assert q1 == q2 * 64 + mid;
    assert q2 == q3 * 64 + hi;
    if cp < 0x80 {
    } else if cp < 0x800 {
      assert Payload2(b[0], b[1]) == cp;
    } else if cp < 0x1_0000 {
      assert cp / 4096 == q2;
      assert Payload3(b[0], b[1], b[2]) == cp;
      assert SecondOfThree(b[0], b[1]);
    } else {
      assert cp / 4096 == q2;
      assert cp / 262144 == q3;
      assert Payload4(b[0], b[1], b[2], b[3]) == cp;
      assert SecondOfFour(b[0], b[1]);
    }
  }

  /** Whatever scalar value the decoder accepts, the encoder spells with exactly
      the bytes it was read from. */
  lemma DecodeFirstCanonical(b: seq<byte>)
    requires |b| > 0 && DecodeFirst(b).Scalar?
    ensures EncodeChar(DecodeFirst(b).c) == b[..DecodeFirst(b).len]
  {
    var c := DecodeFirst(b).c;
    var cp := c as int;
    var b0: int := b[0];
    if b0 < 0x80 {
    } else if b0 < 0xE0 {
      DivMod64(cp, b0 - 0xC0, b[1] - 0x80);
    } else if b0 < 0xF0 {
      var q1 := (b0 - 0xE0) * 64 + (b[1] - 0x80);
      DivMod64(cp, q1, b[2] - 0x80);
      DivMod64(q1, b0 - 0xE0, b[1] - 0x80);
      assert cp / 4096 == b0 - 0xE0;
    } else {
      var q2 := (b0 - 0xF0) * 64 + (b[1] - 0x80);
      var q1 := q2 * 64 + (b[2] - 0x80);
      DivMod64(cp, q1, b[3] - 0x80);
      DivMod64(q1, q2, b[2] - 0x80);
      DivMod64(q2, b0 - 0xF0, b[1] - 0x80);
      assert cp / 4096 == q2;
      assert cp / 262144 == b0 - 0xF0;
    }
  }

  /** Every string survives encoding and strict decoding unchanged. */
  lemma {:induction false} DecodeEncode(s: string)
    ensures Decode(Encode(s)) == Ok(s)
  {
    if |s| > 0 {
      var head := EncodeChar(s[0]);
      var b := Encode(s);
      assert b == head + Encode(s[1..]);
      DecodeFirstEncodeChar(s[0], Encode(s[1..]));
      assert b[|head|..] == Encode(s[1..]);
      DecodeEncode(s[1..]);
      assert [s[0]] + s[1..] == s;
    }
  }

  /** Bytes that decode are exactly the encoding of what they decode to. */
  lemma EncodeCons(c: char, v: string)
    ensures Encode([c] + v) == EncodeChar(c) + Encode(v)
  {
    assert ([c] + v)[1..] == v;
  }

  /** A successful decode of a non-empty input is its first scalar value
      followed by the decode of the rest. */
  lemma DecodeCons(b: seq<byte>)
    requires |b| > 0 && Decode(b).Ok?
    ensures DecodeFirst(b).Scalar?
    ensures Decode(b[DecodeFirst(b).len..]).Ok?
    ensures Decode(b).value == [DecodeFirst(b).c] + Decode(b[DecodeFirst(b).len..]).value
  {
  }

  lemma EncodeJoin(b: seq<byte>, c: char, n: nat, v: string)
    requires n <= |b| && EncodeChar(c) == b[..n] && Encode(v) == b[n..]
    ensures Encode([c] + v) == b
  {
    EncodeCons(c, v);
    assert b == b[..n] + b[n..];
  }

  lemma {:induction false} EncodeDecode(b: seq<byte>)
    requires Decode(b).Ok?
    ensures Encode(Decode(b).value) == b
    decreases |b|
  {
    if |b| > 0 {
      DecodeCons(b);
      var step := DecodeFirst(b);
      DecodeFirstCanonical(b);
      EncodeDecode(b[step.len..]);
      EncodeJoin(b, step.c, step.len, Decode(b[step.len..]).value);
    }
  }

  /** U+FFFD REPLACEMENT CHARACTER. */
  const Replacement: char := '\U{FFFD}'

  /** `String::from_utf8_lossy`: each bad sequence becomes one U+FFFD, and an
      input that ends in mid-sequence ends in one U+FFFD. */
  function DecodeLossy(b: seq<byte>): (r: string)
    ensures |r| <= |b|
    ensures |b| > 0 ==> |r| > 0
    decreases |b|
  {
    if |b| == 0 then []
    else
      match DecodeFirst(b)
      case Scalar(c, n) => [c] + DecodeLossy(b[n..])
      case Invalid(Some(n)) => [Replacement] + DecodeLossy(b[n..])
      case Invalid(None) => [Replacement]
  }

  /** On valid input the lossy decoder is the strict one. */
  lemma {:induction false} LossyAgreesOnValid(b: seq<byte>)
    requires Decode(b).Ok?
    ensures DecodeLossy(b) == Decode(b).value
    decreases |b|
  {
    if |b| > 0 {
      DecodeCons(b);
      LossyAgreesOnValid(b[DecodeFirst(b).len..]);
    }
  }

  /** Nothing invalid passes silently: lossy decoding of bytes that are not
      UTF-8 shows at least one U+FFFD. */
  lemma {:induction false} LossyMarksEveryError(b: seq<byte>)
    requires Decode(b).Err?
    ensures Replacement in DecodeLossy(b)
    decreases |b|
  {
    match DecodeFirst(b)
    case Scalar(c, n) =>
      LossyMarksEveryError(b[n..]);
    case Invalid(_) =>
  }
}

=== FILE: wrappers.dfy ===
/** Option and Result, the two failure-carrying shapes the Rust crate uses
    (`Option<T>` and `std::result::Result<T, E>`), usable with `:-`. */
module Wrappers {

  datatype Option<+T> = None | Some(value: T) {

    /** `Option::unwrap_or` */
    function GetOr(default: T): T {
      match this
      case Some(v) => v
      case None => default
    }
  }

  datatype Result<+T, +E> = Ok(value: T) | Err(error: E) {

    predicate IsFailure() {
      Err?
    }

    function PropagateFailure<U>(): Result<U, E>
      requires Err?
    {
      Err(error)
    }

    function Extract(): T
      requires Ok?
    {
      value
    }
  }
}
